=== FILE: README.md ===
# WhatsApp bulk sender: a Dafny model of its core

`main.py` is a Kivy app that walks through a spreadsheet of contacts and, for
each contact, opens a WhatsApp click-to-chat link in the browser carrying a
personalised message. This project models the parts of `main.py` that make
decisions:

- **Contact loading** (`load_contacts`). The app locates the `Nome` and
  `Número de Telefone` columns. It looks for the exact names first, and then
  tries a table of lower-cased, trimmed synonyms. It then drops rows with a
  missing cell, trims both values, and deletes every phone character that is
  not a digit or `+`. Modules: `Text`, `Headers`, `Phone`, `Contacts`.
- **The click-to-chat link** (`process_current_contact`). The app replaces
  `{nome}` by the contact's name and encodes the text with
  `urllib.parse.quote(..., safe='')`, which is UTF-8 followed by RFC 3986
  percent-encoding. It puts `+55` in front of a number that has no leading
  `+`, then builds `https://wa.me/<number without '+'>?text=<encoded>`.
  Modules: `Template`, `Utf8`, `Percent`, `ChatLink`.
- **The send session**. This covers `validate_inputs`, `start_sending`,
  `process_current_contact`, `next_contact`, `auto_next`, `stop_sending` and
  `finish_sending`, plus the state change that `load_contacts` makes. Module
  `Session` models it as a transition system over an `App` record. `App`
  holds the message, the mode, the contacts, the cursor, `is_sending`, the
  three buttons' `disabled` flags and the number of pending `auto_next`
  timers. Each widget callback is an `Event`, and `Apply` dispatches it the
  way Kivy does: a disabled button calls nothing.

Three things come from outside and are treated as follows:

- The spreadsheet read is an input to `Contacts.Load`.
- Whether `webbrowser.open` raised is a field of the event. A call that returns
  `False` without raising still counts as an opened chat (lines 430-436).
- `Clock.schedule_once` increments a counter, and a `TimerFires` event
  consumes it.

`Session.Output` records the chat that was opened as its template and
contact. `Session.Url` turns it into the exact address that is handed to the
browser.

### Behaviour worth noting

- **Zero-row load.** When no row survives cleaning, `load_contacts` has
  already assigned `contacts_data` and reset `current_index` before it raises
  "Nenhum contato válido…", so the previous list is lost
  (`Session.EmptySheetDiscardsContacts`).
- **Missing columns.** Loading fails if *either* required column is missing
  after renaming, and the error lists every missing one
  (`Headers.LocateColumns`).
- **Blank cells.** `read_excel` reads an empty cell as NaN, and `dropna`
  drops that row. A cell holding only white space is text, survives `dropna`,
  and is trimmed to the empty string, so an all-space name is kept as the
  empty name (`Contacts.BlankNameKept`). A phone with neither digits nor `+`
  becomes the empty number. A phone whose only kept characters are `+`
  signs, such as `+ ()`, becomes `+`: it gets no `+55` and the link is
  `https://wa.me/?text=…`.
- **`+` in numbers.** The regular expression `[^\d+]` keeps `+` anywhere in
  the number, not only in front (`Phone.PlusKeptAnywhere`).
- **Link format.** The link removes every `+` from the dialled number and
  uses the host `wa.me` (`ChatLink.LinkNumber`).
- **Placeholder.** The placeholder is `{nome}`.
- **Stop and timers.** `stop_sending` does not cancel a pending `auto_next`.
  `auto_next` checks only `is_sending`, and a new start sets that flag again,
  so a timer left over from a stopped run advances the next run
  (`Session.StaleTimerAdvancesNewRun`).

## Model

| member | source | states |
|---|---|---|
| Text.Strip | main.py:352-353 | `str.strip()` returns a string with no white space at either end |
| Text.StripIsInfix | main.py:352-353 | `s.strip()` is the infix of `s` obtained by removing white space only, from both ends; together with `Strip`'s contract this pins the result down |
| Text.TrimStartDropsSpace | main.py:352 | the prefix that left trimming removes is all white space, and an all-space string trims to empty |
| Text.TrimEndDropsSpace | main.py:352 | the suffix that right trimming removes is all white space |
| Text.StripTrimmed | main.py:418 | a string with no white space at either end is its own strip |
| Text.StripIdempotent | main.py:418 | stripping an already stripped value changes nothing |
| Text.StripEmptyIffAllSpace | main.py:392 | `message.strip()` is empty exactly when the message is all white space, both directions |
| Text.AsciiLower | main.py:341 | `lower()` maps each character on its own and keeps the length |
| Text.LowerKeepsSpace | main.py:341 | lower-casing never makes a character white space or removes its white space |
| Text.Join | main.py:348 | `', '.join(...)` of the missing names; its value on the lists that occur is stated by `Contacts.MissingColumnsText` |
| Headers.RenameColumn | main.py:343 | `df.rename(columns={from: to})` relabels every column called `from` and leaves every other label and the column count alone |
| Headers.SynonymKey | main.py:341 | `col.lower().strip()`; its value on the required names is stated by `Headers.NameColumnKey` and `Headers.PhoneColumnKey` |
| Headers.Renamed | main.py:341-343 | the label one header gets from the synonym table; stated by `Headers.RenamedCases`, `Headers.RenameTargetsAreFixed` and `Headers.RenamedIdempotent` |
| Headers.RenameLoop | main.py:340-343 | the renaming loop keeps the column count; what it computes is stated by `Headers.LoopIsRelabel` and `Headers.RenamedEverywhere` |
| Headers.MissingFrom | main.py:346 | the missing list holds exactly the required names that are absent from the columns |
| Headers.Missing | main.py:326 | the missing required columns, in the order `Nome`, then the phone column |
| Headers.ResolveHeaders | main.py:324-343 | headers are unchanged when both exact names are present; the column count never changes |
| Headers.NameColumnKey | main.py:331 | the key of `Nome` is `nome` |
| Headers.PhoneColumnKey | main.py:325-337 | the exact phone column name, lower-cased and trimmed, is not a synonym |
| Headers.SynonymTargets | main.py:330-337 | every synonym maps to one of the two required names |
| Headers.RequiredNamesFixed | main.py:325-343 | the synonym table leaves both required names as they are |
| Headers.RenameTargetsAreFixed | main.py:330-343 | a header that the table changes becomes one of the two required names |
| Headers.RenamedIdempotent | main.py:330-343 | applying the synonym table twice gives the same result as applying it once |
| Headers.LoopBodyIsRename | main.py:341-343 | one pass of the loop body renames the visited label to its synonym target, or to itself when it has none |
| Headers.RelabelStep | main.py:340-343 | renaming one visited label keeps the loop invariant: visited original labels are relabelled and all others are untouched |
| Headers.LoopIsRelabel | main.py:340-343 | the loop over the original column list renames each visited label to its synonym target, one `rename` per label, in list order |
| Headers.RelabelInvariant | main.py:340-343 | the loop keeps its invariant: every visited original label is relabelled to its target and every other column keeps its original label |
| Headers.RenamedEverywhere | main.py:340-343 | after the loop, each column carries the synonym target of its original label, and the column count is unchanged |
| Headers.ResolveHeadersPointwise | main.py:328-343 | when a required column is missing, a header is relabelled exactly when its key is a synonym, to that synonym's target, and every other header keeps its label |
| Headers.IndexOf | main.py:351-352 | the first column with a given label, or none exactly when no column has it |
| Headers.LocateColumns | main.py:345-352 | fails with the missing names exactly when a required name is absent after renaming; succeeds exactly when both required names are present and neither labels two columns; a duplicate error names a required label that really occurs twice; on success each required name labels exactly one column, the one returned |
| Headers.LaterOccurrence | main.py:351-352 | a label found again after position `i` labels at least two columns |
| Headers.OnlyOccurrence | main.py:351-352 | a label that occurs neither before nor after position `k` labels only `k` |
| Phone.CleanPhone | main.py:356 | the cleaned phone contains only digits and `+` and is no longer than the input |
| Phone.CleanPhoneAppend | main.py:356 | cleaning acts on each character independently, so it distributes over concatenation |
| Phone.CleanPhoneFixpoint | main.py:356 | cleaning leaves a string unchanged exactly when it is made only of digits and `+`, both directions |
| Phone.CleanPhoneIdempotent | main.py:356 | cleaning twice gives the same result as cleaning once |
| Phone.CleanPhoneSubsequence | main.py:356 | the cleaned phone keeps the input's characters in their original order |
| Phone.CleanPhoneCounts | main.py:356 | each digit and each `+` is kept as many times as it occurs, and every other character is removed |
| Phone.PlusKeptAnywhere | main.py:356 | a `+` in the middle of a number is kept |
| Phone.CleanPhoneIgnoresStrip | main.py:353-356 | stripping before cleaning does not change the cleaned number |
| Contacts.CleanContact | main.py:352-356 | a kept row gives a contact whose name is trimmed and whose phone has only digits and `+` |
| Contacts.Cell | main.py:351 | the cell of a row under a column, missing past the end of a short row; with `Contacts.Complete`, which rows `dropna` keeps is stated by `Contacts.CompleteRows` |
| Contacts.Complete | main.py:351 | `dropna(subset=[...])` keeps a row exactly when both required cells are present; stated by `Contacts.CompleteRows` |
| Contacts.Describe | main.py:320-362 | the text of the raised exception; the missing-columns text is stated by `Contacts.MissingColumnsText` |
| Contacts.MissingColumnsText | main.py:346-348 | the error lists the missing names in the order `Nome`, then the phone column, separated by ", ", after "Colunas não encontradas: " |
| Contacts.CleanContactFromCells | main.py:351-356 | a contact's name is its name cell with white space removed from both ends only, and its phone is its phone cell with every character other than a digit or `+` removed |
| Contacts.RowContact | main.py:351-356 | a row gives at most one contact, and that contact is clean |
| Contacts.CleanRows | main.py:351-358 | the records never outnumber the rows, and all of them are clean |
| Contacts.CompleteRows | main.py:351 | the positions `dropna` keeps, in increasing order: every row with both cells present and no other row |
| Contacts.CleanRowsMatch | main.py:351-358 | each record is the one contact that its complete row yields, record `j` coming from the `j`-th complete row |
| Contacts.CleanRowsKeepsCompleteRows | main.py:351-358 | the records are exactly the complete rows, in their original order, each one trimmed and cleaned |
| Contacts.BlankNameKept | main.py:351-352 | a name cell that is all white space is kept and becomes the empty name |
| Contacts.ReadContacts | main.py:324-358 | loading fails exactly when column location fails, and with that error; otherwise record `j` is the trimmed and cleaned `j`-th complete row, and there is one record per complete row |
| Contacts.Load | main.py:313-358 | a failed read, and only a failed read, is reported as "Erro ao ler arquivo" with the reader's message; a sheet that was read gives exactly what `ReadContacts` gives for it; loaded records are clean |
| Template.Substitute | main.py:412 | `message.replace('{nome}', name)`; stated by `Template.SubstituteIsJoin`, `Template.PiecesRejoin` and `Template.PiecesAreFree` |
| Template.SubstituteIsJoin | main.py:412 | `t.replace('{nome}', n)` equals `n.join(t.split('{nome}'))` |
| Template.SubstituteItself | main.py:412 | replacing the placeholder with itself gives back the template |
| Template.PiecesRejoin | main.py:412 | the pieces between placeholders, joined with the placeholder, give back the template |
| Template.PiecesAreFree | main.py:412 | no text that survives replacement contains the placeholder, so every occurrence the scan passes is replaced |
| Template.NoPlaceholderUnchanged | main.py:412 | a template without `{nome}` is sent unchanged |
| Template.PersonalisedGreeting | main.py:412 | `"Oi {nome}!"` for Ana gives `"Oi Ana!"` |
| Utf8.Encode | main.py:415 | the UTF-8 bytes of the message; stated by the round trips `Utf8.DecodeEncode` and `Utf8.EncodeDecode` |
| Utf8.EncodeChar | main.py:415 | a character encodes to 1-4 bytes; it is one byte exactly for ASCII, and every later byte is a continuation byte |
| Utf8.DecodeEncodeChar | main.py:415 | decoding the encoding of a character gives the character back and consumes exactly its bytes |
| Utf8.DecodeEncode | main.py:415 | decoding undoes UTF-8 encoding for every string |
| Utf8.EncodeDecodeChar | main.py:415 | a character the decoder accepts re-encodes to exactly the bytes it was read from |
| Utf8.EncodeDecode | main.py:415 | every valid UTF-8 byte string is the encoding of what it decodes to |
| Percent.EncodeByte | main.py:415 | one byte, kept as its character when unreserved and written as `%XX` otherwise; stated by `Percent.DecodeEncodeByte` and `Percent.EncodeByteCanonical` |
| Percent.PercentEncode | main.py:415 | `quote_from_bytes(bs, safe='')`; stated by `Percent.EncodeCanonical`, `Percent.DecodeEncode` and `Percent.EncodeDecode` |
| Percent.Quote | main.py:415 | `quote(message, safe='')`; stated by `Percent.QuoteRoundTrip`, `Percent.ReservedEscaped` and `Percent.QuoteUnreserved` |
| Percent.HexRoundTrip | main.py:415 | an upper-case hex digit reads back as its value |
| Percent.ByteRoundTrip | main.py:415 | the two hex digits of a byte's escape read back as the byte |
| Percent.DecodeEncodeByte | main.py:415 | decoding one byte's encoding gives the byte, whatever follows it |
| Percent.EncodeCanonical | main.py:415 | `quote` produces only unreserved characters and `%XX` triples with upper-case digits, each triple for a byte that is not unreserved |
| Percent.DecodeEncode | main.py:415 | percent-decoding undoes percent-encoding |
| Percent.EncodeDecode | main.py:415 | every canonical string is the encoding of what it decodes to, so the possible outputs of `quote` are exactly the canonical strings |
| Percent.QuoteRoundTrip | main.py:415 | decoding the quoted message gives its UTF-8 bytes, and those give back the message |
| Percent.ReservedEscaped | main.py:415 | with `safe=''`, `/` becomes `%2F`, `+` becomes `%2B` and a space becomes `%20` |
| Percent.QuoteUnreserved | main.py:415 | text made only of unreserved characters is sent as it is |
| ChatLink.DialNumber | main.py:418-420 | the dialled number always starts with `+` |
| ChatLink.DropPlus | main.py:423 | `replace('+', '')` removes every `+` and keeps every other character exactly as often as it occurs |
| ChatLink.PhoneNumberTrimmed | main.py:418 | the second `strip()` does not change a cleaned number |
| ChatLink.DefaultCountryCode | main.py:419-420 | a stored number starting with `+` is dialled as is, and any other gets `+55` in front |
| ChatLink.DropPlusAppend | main.py:423 | removing `+` distributes over concatenation |
| ChatLink.DropPlusDigits | main.py:423 | removing `+` from a cleaned number leaves only digits |
| ChatLink.LinkNumber | main.py:418-423 | the number in the link is the stored number without `+`, preceded by `55` exactly when the stored number has no leading `+` |
| ChatLink.LinkNumberDigits | main.py:418-423 | the number in the link is made of digits only |
| ChatLink.Link | main.py:411-423 | the address handed to `webbrowser.open`; stated by `ChatLink.LinkRoundTrip`, `ChatLink.LinkNumber` and `ChatLink.LinkCarriesMessage` |
| ChatLink.FirstIndex | main.py:423 | the position of the first `?`, or the length when there is none |
| ChatLink.ParseBuiltLink | main.py:423 | a link assembled from a number without `?` parses back into that number and the encoded text |
| ChatLink.LinkRoundTrip | main.py:411-423 | a stored contact's link parses back into the digits-only dialled number and the quoted personalised message |
| ChatLink.LinkCarriesMessage | main.py:411-423 | the text parameter of a stored contact's link decodes to the UTF-8 bytes of the personalised message |
| Session.ValidateInputs | main.py:390-400 | start is refused exactly when the message is blank or no contacts are loaded; the popup asks for a message exactly when the message is blank, and for a spreadsheet exactly when the message is not blank and no contacts are loaded |
| Session.FinishSending | main.py:469-482 | the run ends, the buttons return to idle, the cursor, contacts and timers are kept, and the popup reports the number of contacts |
| Session.StopSending | main.py:458-467 | the run ends, the buttons return to idle, pending timers are not cancelled, and the status line reports cursor and total |
| Session.ProcessCurrent | main.py:402-439 | past the end it finishes; otherwise it opens the current contact's chat, or reports the failed open, and schedules one `auto_next` exactly when the open succeeded during an automatic run |
| Session.StartSending | main.py:374-388 | `start_sending`; stated by `Session.StartRefused`, `Session.StartAccepted` and `Session.StartKeepsInv` |
| Session.NextContact | main.py:446-456 | `next_contact`; stated by `Session.NextIdle`, `Session.NextAdvances` and `Session.NextKeepsInv` |
| Session.AutoNext | main.py:441-444 | `auto_next`; stated by `Session.NextIdle` and `Session.NextAdvances`, which show it equal to `next_contact` |
| Session.LoadContacts | main.py:294-362 | the state change of `file_selected`; stated by `Session.LoadKeepsRun`, `Session.EmptySheetDiscardsContacts` and `Session.LoadKeepsInv` |
| Session.FileChosen | main.py:294-362 | the event a chosen file produces carries `Contacts.Load` of it: clean records when it loads, and never the no-valid-contacts error, which comes from the empty list |
| Session.Apply | main.py:374-476 | Kivy's dispatch of each widget callback; stated by `Session.DisabledButtonsIgnored`, `Session.SettingsOnly`, `Session.SendDispatch` and `Session.ApplyKeepsInv` |
| Session.SettingsOnly | main.py:364-372 | editing the message and switching the mode change only their own field and show nothing |
| Session.SendDispatch | main.py:374-377 | an enabled send button calls `start_sending` |
| Session.InitialInv | main.py:94-99 | the initial state satisfies the session invariant |
| Session.DisabledButtonsIgnored | main.py:379-385 | a disabled button does nothing: during a run send cannot restart the run, and outside a run next and stop change nothing (the flags are set at lines 383-385 and 463-465) |
| Session.StartKeepsInv | main.py:374-388 | `start_sending` keeps the invariant: an accepted start has a contact under the cursor |
| Session.NextKeepsInv | main.py:441-456 | `next_contact` and `auto_next` keep the invariant |
| Session.LoadKeepsInv | main.py:358-362 | a load keeps the invariant, also mid-run |
| Session.ApplyKeepsInv | main.py:374-476 | every event keeps the invariant: the buttons agree with `is_sending`, and during a run the cursor is on a contact, unless an empty sheet was loaded mid-run (which empties the list and keeps `is_sending`) |
| Session.StartRefused | main.py:374-377 | start is refused exactly when the message is blank or no contacts are loaded, and a refusal changes nothing |
| Session.StartAccepted | main.py:374-388 | an accepted start begins at contact 0 with send disabled and next and stop enabled, and opens the first chat |
| Session.NextIdle | main.py:441-449 | outside a run, next and `auto_next` change nothing |
| Session.NextAdvances | main.py:441-456 | during a run, next and `auto_next` behave the same and move the cursor forward by one; the run ends, with the completion popup, exactly when the cursor reaches the end |
| Session.StopAndFinishRestore | main.py:458-476 | stop and finish change only the sending flag and the buttons |
| Session.ProcessOpened | main.py:402-432 | when `process_current_contact` opens a chat, the cursor is on a contact and the chat is for that contact with the current message; the cursor, contacts and message are kept |
| Session.OpenedIsCurrent | main.py:402-432 | every chat opened is for the contact under the cursor, with the current message |
| Session.EmptySheetDiscardsContacts | main.py:358-362 | a sheet with no valid rows empties the contact list and resets the cursor before it reports the error |
| Session.LoadKeepsRun | main.py:294-362 | a load that fails before `contacts_data` is assigned changes nothing; otherwise it replaces the contacts and resets the cursor and nothing else; the error is shown exactly when the load failed or gave no contacts |
| Session.RunCons | main.py:374-476 | running a sequence of events applies the first event and then the rest |
| Session.Presses | main.py:446-456 | the `k` presses of next |
| Session.ManualRunLast | main.py:446-456 | in manual mode, next on the last contact completes the run |
| Session.ManualRunStep | main.py:446-456 | in manual mode, next with a contact left opens that contact's chat and continues |
| Session.ManualRun | main.py:446-456 | in manual mode, pressing next until the end opens each remaining chat once, in list order, and then completes |
| Session.ManualSessionStart | main.py:374-388 | the press of send that starts a manual session opens the first chat |
| Session.ManualSession | main.py:374-456 | a manual session, one start and one next per contact, opens every contact's chat exactly once, in order, and ends with the completion popup |
| Session.SendStep | main.py:374-388 | a valid press of send starts a run at contact 0 and schedules one timer in automatic mode |
| Session.SendOpens | main.py:374-432 | a valid press of send opens the first contact's chat |
| Session.SendIsStart | main.py:374-388 | a valid press of send processes contact 0 of a new run |
| Session.Accepts | main.py:390-400 | a message that is not blank, together with loaded contacts, passes validation |
| Session.PressSendIsStart | main.py:374-388 | an enabled send that validates processes contact 0 of a new run |
| Session.StopStep | main.py:458-465 | an enabled stop ends the run and restores the idle buttons |
| Session.TimerStep | main.py:441-456 | a pending timer that fires during a run with a contact left moves the cursor and, in automatic mode, schedules the next timer |
| Session.NextStep | main.py:446-454 | an enabled next with a contact left moves the cursor and, in automatic mode, schedules a timer |
| Session.NextOpens | main.py:446-454 | an enabled next with a contact left opens that contact's chat |
| Session.NextCompletes | main.py:446-456 | next on the last contact completes the run |
| Session.RunOfSteps | main.py:374-465 | the state after start, stop, start and timer, built from the single steps |
| Session.StaleTimerAdvancesNewRun | main.py:435-465 | stop does not cancel a timer: after stop and a new automatic start, the old timer moves the new run to contact 1 while the new run's own timer is still pending |

## Left out

- The Kivy widget tree is not modelled: layouts, labels, colours, popups, the file picker and the progress bar. The outputs stand for what the user is shown. The progress value (line 426) is floating point and is not modelled.
- Reading the file (lines 310-322) is an input to `Contacts.Load`, either a sheet or a failure. The check that pandas is installed is not modelled. Nor is the second, unguarded `pd.read_excel` on line 322, whose failure would raise without the "Erro ao ler arquivo" prefix.
- A cell is modelled as the text `astype(str)` makes of it, or as missing. How pandas renders numbers is not modelled. For example, a phone column with a missing cell is read as floats, and `5511999.0` then cleans to `55119990`.
- Column headers are strings. A non-text header would make `col.lower()` raise, and that case is not modelled.
- `lower()` is modelled on ASCII letters only. The only non-ASCII character that lowers to ASCII is KELVIN SIGN (to `k`), and no synonym contains `k`. `\d` is modelled as the ASCII digits. The regular expression also accepts other Unicode decimal digits, and those are not modelled.
- Strings are sequences of Unicode scalar values. Lone surrogates, which would make `quote` raise, cannot occur.
- `webbrowser.open` is a boolean carried by the event. `Clock.schedule_once` is a count of pending timers. The five-second delay is not modelled, and neither is the order of several pending timers: they are interchangeable.
- A cell is `None` for whatever pandas' default `na_values` reads as NaN: an empty cell, and text such as `NA`, `null`, `None` or `nan`. Which texts those are is not modelled; the sheet given to `Contacts.Load` already says which cells are missing.
- The text `Contacts.Describe` gives for the `DuplicateColumn` error is the message of pandas' AttributeError. It is recorded as a fixed string and nothing is proved about it.
- Session.Presses: states only the number of events. The events themselves are given by its definition.
- Headers.ResolveHeaders: its contract covers only the case where nothing is renamed. The renaming case is `Headers.ResolveHeadersPointwise`.
- Contacts.CleanRows: its contract gives only bounds and cleanliness. The exact list is `Contacts.CleanRowsKeepsCompleteRows`.

=== FILE: chatlink.dfy ===
/** The click-to-chat link of `process_current_contact` (lines 411-423):
    personalise the message, percent-encode it, complete the phone number
    with the default country code and assemble
    `https://wa.me/<number without '+'>?text=<encoded message>`. */
module ChatLink {
  import opened Wrappers
  import opened Text
  import Phone
  import Contacts
  import Template
  import Percent
  import Utf8

  /** Brazil's calling code, assumed for a number written without one. */
  const CountryCode: string := "+55"

  const LinkBase: string := "https://wa.me/"

  const TextQuery: string := "?text="

  predicate StartsWithPlus(s: string) {
    |s| > 0 && s[0] == '+'
  }

  /** Lines 418-420: `str(phone).strip()`, then "+55" in front unless the
      number already starts with '+'. */
  function DialNumber(phone: string): (r: string)
    ensures StartsWithPlus(r)
  {
    var p := Strip(phone);
    if StartsWithPlus(p) then p else CountryCode + p
  }

  /** `s.replace('+', '')` */
  function DropPlus(s: string): (r: string)
    ensures '+' !in r
    ensures |r| <= |s|
    ensures forall c :: multiset(r)[c] == if c == '+' then 0 else multiset(s)[c]
  {
    if s == [] then []
    else
      assert s == [s[0]] + s[1..];
      (if s[0] == '+' then [] else [s[0]]) + DropPlus(s[1..])
  }

  /** Line 423. */
  function Link(template: string, contact: Contacts.Contact): string {
    var message := Template.Substitute(template, contact.name);
    LinkBase + DropPlus(DialNumber(contact.phone)) + TextQuery + Percent.Quote(message)
  }

  /** Position of the first `c` in `s`, or `|s|` when there is none. */
  function FirstIndex(s: string, c: char): (i: nat)
    ensures i <= |s|
    ensures c !in s[..i]
    ensures i < |s| ==> s[i] == c
  {
    if s == [] then 0
    else if s[0] == c then 0
    else
      var j := FirstIndex(s[1..], c);
      assert s[..j + 1] == [s[0]] + s[1..][..j];
      j + 1
  }

  /** Reads a link back into its number and its encoded text; `None` when it
      is not a click-to-chat link. */
  function ParseLink(url: string): Option<(string, string)> {
    if |url| < |LinkBase| || url[..|LinkBase|] != LinkBase then None
    else
      var rest := url[|LinkBase|..];
      var i := FirstIndex(rest, '?');
      var query := rest[i..];
      if |query| < |TextQuery| || query[..|TextQuery|] != TextQuery then None
      else Some((rest[..i], query[|TextQuery|..]))
  }

  /** A cleaned phone number is already trimmed, so the second `strip()`
      (line 418) changes nothing. */
  lemma PhoneNumberTrimmed(phone: string)
    requires Phone.IsPhoneNumber(phone)
    ensures Strip(phone) == phone
  {
    if phone != [] {
      assert Phone.IsPhoneChar(phone[0]) && Phone.IsPhoneChar(phone[|phone| - 1]);
    }
    StripTrimmed(phone);
  }

  /** Lines 419-420 on a stored (cleaned) number: a number starting with '+'
      is dialled as it is, any other gets "+55" in front. */
  lemma DefaultCountryCode(phone: string)
    requires Phone.IsPhoneNumber(phone)
    ensures StartsWithPlus(phone) ==> DialNumber(phone) == phone
    ensures !StartsWithPlus(phone) ==> DialNumber(phone) == "+55" + phone
  {
    PhoneNumberTrimmed(phone);
  }

  lemma {:induction false} DropPlusAppend(a: string, b: string)
    ensures DropPlus(a + b) == DropPlus(a) + DropPlus(b)
    decreases |a|
  {
    if a == [] {
      assert a + b == b;
    } else {
      assert (a + b)[0] == a[0] && (a + b)[1..] == a[1..] + b;
      DropPlusAppend(a[1..], b);
    }
  }

  predicate IsDigit(c: char) {
    '0' <= c <= '9'
  }

  /** Removing the '+' signs from digits and '+' leaves only digits. */
  lemma {:induction false} DropPlusDigits(s: string)
    requires Phone.IsPhoneNumber(s)
    ensures forall k :: 0 <= k < |DropPlus(s)| ==> IsDigit(DropPlus(s)[k])
    decreases |s|
  {
    if s != [] {
      DropPlusDigits(s[1..]);
    }
  }

  /** The number in the link of a stored contact: its digits, after "55"
      when the stored number has no leading '+'. */
  lemma LinkNumber(phone: string)
    requires Phone.IsPhoneNumber(phone)
    ensures DropPlus(DialNumber(phone)) == if StartsWithPlus(phone) then DropPlus(phone) else "55" + DropPlus(phone)
  {
    DefaultCountryCode(phone);
    if !StartsWithPlus(phone) {
      DropPlusAppend(CountryCode, phone);
      assert DropPlus(CountryCode) == "55";
    }
  }

  /** Whatever the stored number, the link's number is made of digits. */
  lemma LinkNumberDigits(phone: string)
    requires Phone.IsPhoneNumber(phone)
    ensures forall k :: 0 <= k < |DropPlus(DialNumber(phone))| ==> IsDigit(DropPlus(DialNumber(phone))[k])
  {
    LinkNumber(phone);
    DropPlusDigits(phone);
  }

  /** Parsing a link recovers the dialled number without '+' and the
      encoded message, for any number without a '?' (every stored number). */
  lemma ParseBuiltLink(number: string, encoded: string)
    requires '?' !in number
    ensures ParseLink(LinkBase + number + TextQuery + encoded) == Some((number, encoded))
  {
    var url := LinkBase + number + TextQuery + encoded;
    var rest := url[|LinkBase|..];
    assert url[..|LinkBase|] == LinkBase;
    assert rest == number + (TextQuery + encoded);
    var i := FirstIndex(rest, '?');
    assert rest[|number|] == '?';
    assert i == |number|;
    assert rest[..i] == number;
    assert rest[i..] == TextQuery + encoded;
  }

  /** The link of a stored contact reads back as the dialled number without
      '+' (digits only, by `LinkNumberDigits`) and the encoded personalised
      message. */
  lemma LinkRoundTrip(template: string, contact: Contacts.Contact)
    requires Contacts.Clean(contact)
    ensures ParseLink(Link(template, contact))
            == Some((DropPlus(DialNumber(contact.phone)), Percent.Quote(Template.Substitute(template, contact.name))))
  {
    var number := DropPlus(DialNumber(contact.phone));
    var encoded := Percent.Quote(Template.Substitute(template, contact.name));
    LinkNumberDigits(contact.phone);
    DigitsOnly(number);
    ParseBuiltLink(number, encoded);
  }

  lemma DigitsOnly(s: string)
    requires forall k :: 0 <= k < |s| ==> IsDigit(s[k])
    ensures '?' !in s
  {
  }

  /** Percent-decoding the text of a stored contact's link gives exactly the
      UTF-8 bytes of the personalised message, and those the message. */
  lemma LinkCarriesMessage(template: string, contact: Contacts.Contact)
    requires Contacts.Clean(contact)
    ensures ParseLink(Link(template, contact)).Some?
    ensures Percent.PercentDecode(ParseLink(Link(template, contact)).value.1)
            == Some(Utf8.Encode(Template.Substitute(template, contact.name)))
  {
    LinkRoundTrip(template, contact);
    Percent.QuoteRoundTrip(Template.Substitute(template, contact.name));
  }
}

=== FILE: contacts.dfy ===
/** Contact loading (`WhatsAppSender.load_contacts`, lines 324-358, after
    the file has been read): locate the required columns, drop incomplete
    rows, trim the values and clean the phone numbers.

    A spreadsheet is a header list plus rows of cells; a cell is `None` when
    pandas would read it as missing (NaN). A row shorter than the header list
    is padded with missing cells, as pandas pads it. */
module Contacts {
  import opened Wrappers
  import opened Text
  import opened Headers
  import opened Phone

  type Row = seq<Option<string>>

  datatype Sheet = Sheet(headers: seq<string>, rows: seq<Row>)

  datatype Contact = Contact(name: string, phone: string)

  /** Everything that makes a load fail. */
  datatype LoadError =
    | ReadFailed(detail: string)
    | BadColumns(cause: ColumnError)
    | NoValidContacts

  /** The text of the raised exception, shown in the status line. */
  function Describe(e: LoadError): string {
    match e
    case ReadFailed(d) => "Erro ao ler arquivo: " + d
    case BadColumns(MissingColumns(names)) => "Colunas n\U{E3}o encontradas: " + Join(names, ", ")
    case BadColumns(DuplicateColumn(_)) => "'DataFrame' object has no attribute 'str'"
    case NoValidContacts => "Nenhum contato v\U{E1}lido encontrado na planilha"
  }

  /** Line 348: the message lists the missing required columns, in the
      order `Nome`, then the phone column, separated by ", ". */
  lemma MissingColumnsText(cols: seq<string>)
    requires Missing(cols) != []
    ensures Describe(BadColumns(MissingColumns(Missing(cols)))) ==
              "Colunas n\U{E3}o encontradas: " +
              if NameColumn !in cols && PhoneColumn !in cols then NameColumn + ", " + PhoneColumn
              else if NameColumn !in cols then NameColumn
              else PhoneColumn
  {
    if NameColumn !in cols && PhoneColumn !in cols {
      assert Join([NameColumn, PhoneColumn], ", ") == NameColumn + ", " + Join([PhoneColumn], ", ");
    }
  }

  // ---------------------------------------------------------------------------
  // Rows
  // ---------------------------------------------------------------------------

  /** The cell of `row` in `column`; missing beyond the end of a short row. */
  function Cell(row: Row, column: nat): Option<string> {
    if column < |row| then row[column] else None
  }

  /** `dropna(subset=[...])` keeps a row when both required cells are present. */
  predicate Complete(row: Row, at: Columns) {
    Cell(row, at.name).Some? && Cell(row, at.phone).Some?
  }

  /** What every stored contact satisfies: a trimmed name and a phone made
      of digits and '+' only. */
  predicate Clean(c: Contact) {
    Trimmed(c.name) && IsPhoneNumber(c.phone)
  }

  /** Lines 352-356 for one row: trim the name, trim and clean the phone. */
  function CleanContact(row: Row, at: Columns): (c: Contact)
    requires Complete(row, at)
    ensures Clean(c)
  {
    Contact(Strip(Cell(row, at.name).value), CleanPhone(Strip(Cell(row, at.phone).value)))
  }

  /** A contact comes from its row's cells: the name is the name cell with
      white space removed from both ends and nothing else, and the phone is
      the phone cell with every character other than a digit or '+' removed
      (the strip before cleaning only removes characters the cleaning drops
      anyway). `i` is the number of characters trimmed from the front. */
  lemma CleanContactFromCells(row: Row, at: Columns) returns (i: nat)
    requires Complete(row, at)
    ensures var cell := Cell(row, at.name).value;
            var c := CleanContact(row, at);
            && Trimmed(c.name)
            && i + |c.name| <= |cell|
            && cell == cell[..i] + c.name + cell[i + |c.name|..]
            && AllSpace(cell[..i]) && AllSpace(cell[i + |c.name|..])
    ensures CleanContact(row, at).phone == CleanPhone(Cell(row, at.phone).value)
  {
    var cell, phone := Cell(row, at.name).value, Cell(row, at.phone).value;
    var c := CleanContact(row, at);
    assert c.name == Strip(cell) && c.phone == CleanPhone(Strip(phone));
    i := TrimmedInfix(cell, c.name);
    CleanPhoneIgnoresStrip(phone);
  }

  /** `StripIsInfix`, for a name known to be the strip of its cell. */
  lemma TrimmedInfix(cell: string, name: string) returns (i: nat)
    requires name == Strip(cell)
    ensures Trimmed(name)
    ensures i + |name| <= |cell|
    ensures cell == cell[..i] + name + cell[i + |name|..]
    ensures AllSpace(cell[..i]) && AllSpace(cell[i + |name|..])
  {
    i := StripIsInfix(cell);
  }

  /** The contact a row yields, if it survives `dropna`. */
  function RowContact(row: Row, at: Columns): (r: seq<Contact>)
    ensures |r| <= 1
    ensures forall c | c in r :: Clean(c)
  {
    if Complete(row, at) then [CleanContact(row, at)] else []
  }

  /** Lines 351-358: the contact records built from a sheet's rows. */
  function CleanRows(rows: seq<Row>, at: Columns): (r: seq<Contact>)
    ensures |r| <= |rows|
    ensures forall c | c in r :: Clean(c)
  {
    if rows == [] then []
    else
      var front := CleanRows(rows[..|rows| - 1], at);
      var last := RowContact(rows[|rows| - 1], at);
      assert forall k :: 0 <= k < |front| + |last| ==>
        (front + last)[k] == if k < |front| then front[k] else last[k - |front|];
      front + last
  }

  /** The positions of the complete rows, in increasing order. */
  function CompleteRows(rows: seq<Row>, at: Columns): (ks: seq<nat>)
    ensures forall j :: 0 <= j < |ks| ==> ks[j] < |rows| && Complete(rows[ks[j]], at)
    ensures forall j, l :: 0 <= j < l < |ks| ==> ks[j] < ks[l]
    ensures forall i :: 0 <= i < |rows| && Complete(rows[i], at) ==> i in ks
  {
    if rows == [] then []
    else
      var n := |rows| - 1;
      var front := rows[..n];
      var ks := CompleteRows(front, at);
      assert forall i :: 0 <= i < n ==> rows[i] == front[i];
      ks + (if Complete(rows[n], at) then [n] else [])
  }

  /** Row cleaning keeps exactly the complete rows, in their original order,
      and turns each into its trimmed, cleaned contact. */
  lemma CleanRowsKeepsCompleteRows(rows: seq<Row>, at: Columns)
    ensures |CleanRows(rows, at)| == |CompleteRows(rows, at)|
    ensures forall j :: 0 <= j < |CleanRows(rows, at)| ==>
              CleanRows(rows, at)[j] == CleanContact(rows[CompleteRows(rows, at)[j]], at)
  {
    CleanRowsMatch(rows, at);
    var cs, ks := CleanRows(rows, at), CompleteRows(rows, at);
    forall j | 0 <= j < |cs|
      ensures cs[j] == CleanContact(rows[ks[j]], at)
    {
      var row := rows[ks[j]];
      assert Contactor(at)(row) == RowContact(row, at) == [CleanContact(row, at)];
      assert [cs[j]][0] == cs[j];
    }
  }

  /** `cs` are what `g` makes of the rows at positions `ks`, in that order. */
  ghost predicate MatchesBy<R, C>(g: R -> seq<C>, cs: seq<C>, ks: seq<nat>, rows: seq<R>) {
    && |cs| == |ks|
    && forall j :: 0 <= j < |cs| ==> ks[j] < |rows| && g(rows[ks[j]]) == [cs[j]]
  }

  /** `RowContact` as a function value. */
  function Contactor(at: Columns): Row -> seq<Contact> {
    row => RowContact(row, at)
  }

  lemma {:induction false} CleanRowsMatch(rows: seq<Row>, at: Columns)
    ensures MatchesBy(Contactor(at), CleanRows(rows, at), CompleteRows(rows, at), rows)
  {
    if rows != [] {
      var n := |rows| - 1;
      var front := rows[..n];
      var g := Contactor(at);
      CleanRowsMatch(front, at);
      var cs, ks := CleanRows(front, at), CompleteRows(front, at);
      MatchesWider(g, cs, ks, front, rows);
      if Complete(rows[n], at) {
        var c := CleanContact(rows[n], at);
        assert g(rows[n]) == RowContact(rows[n], at) == [c];
        MatchesAppend(g, cs, ks, rows, n, c);
        assert CleanRows(rows, at) == cs + [c];
        assert CompleteRows(rows, at) == ks + [n];
      } else {
        assert CleanRows(rows, at) == cs + [];
        assert CompleteRows(rows, at) == ks + [];
      }
    }
  }

  /** The correspondence survives adding rows after the last one. */
  lemma MatchesWider<R, C>(g: R -> seq<C>, cs: seq<C>, ks: seq<nat>, front: seq<R>, rows: seq<R>)
    requires |front| <= |rows| && front == rows[..|front|]
    requires MatchesBy(g, cs, ks, front)
    ensures MatchesBy(g, cs, ks, rows)
  {
    forall j | 0 <= j < |cs|
      ensures rows[ks[j]] == front[ks[j]]
    {
    }
  }

  /** ... and appending a row's value and position keeps it. */
  lemma MatchesAppend<R, C>(g: R -> seq<C>, cs: seq<C>, ks: seq<nat>, rows: seq<R>, n: nat, c: C)
    requires MatchesBy(g, cs, ks, rows)
    requires n < |rows| && g(rows[n]) == [c]
    ensures MatchesBy(g, cs + [c], ks + [n], rows)
  {
    forall j | 0 <= j < |cs| + 1
      ensures (ks + [n])[j] < |rows| && g(rows[(ks + [n])[j]]) == [(cs + [c])[j]]
    {
      if j < |cs| {
        assert (cs + [c])[j] == cs[j] && (ks + [n])[j] == ks[j];
      } else {
        assert (cs + [c])[j] == c && (ks + [n])[j] == n;
      }
    }
  }

  /** A name cell holding only white space is not dropped; it becomes the
      empty name. */
  lemma BlankNameKept(row: Row, at: Columns)
    requires Complete(row, at) && AllSpace(Cell(row, at.name).value)
    ensures CleanContact(row, at).name == []
  {
    StripEmptyIffAllSpace(Cell(row, at.name).value);
  }

  // ---------------------------------------------------------------------------
  // The whole load
  // ---------------------------------------------------------------------------

  /** Lines 324-358 after the file has been read: the records stored in
      `contacts_data` (possibly none), or the error raised before that. */
  function ReadContacts(sheet: Sheet): (r: Result<seq<Contact>, LoadError>)
    ensures r.Err? <==> LocateColumns(sheet.headers).Err?
    ensures r.Err? ==> r.error == BadColumns(LocateColumns(sheet.headers).error)
    ensures r.Ok? ==> |r.value| <= |sheet.rows|
    ensures r.Ok? ==> forall c | c in r.value :: Clean(c)
    ensures r.Ok? ==>
              var at := LocateColumns(sheet.headers).value;
              var kept := CompleteRows(sheet.rows, at);
              && |r.value| == |kept|
              && forall j :: 0 <= j < |r.value| ==> r.value[j] == CleanContact(sheet.rows[kept[j]], at)
  {
    match LocateColumns(sheet.headers)
    case Err(e) => Err(BadColumns(e))
    case Ok(at) =>
      CleanRowsKeepsCompleteRows(sheet.rows, at);
      Ok(CleanRows(sheet.rows, at))
  }

  /** The spreadsheet read of lines 313-322, as an outcome: the file and the
      pandas reader are not part of this model. */
  datatype ReadOutcome = Read(sheet: Sheet) | Unreadable(detail: string)

  /** `load_contacts` up to the assignment of `contacts_data`: a failed read
      is reported as such, a read sheet goes through `ReadContacts`. */
  function Load(read: ReadOutcome): (r: Result<seq<Contact>, LoadError>)
    ensures r.Err? && r.error.ReadFailed? <==> read.Unreadable?
    ensures read.Unreadable? ==> r.error.detail == read.detail
    ensures read.Read? ==> r == ReadContacts(read.sheet)
    ensures r.Ok? ==> forall c | c in r.value :: Clean(c)
  {
    match read
    case Unreadable(detail) => Err(ReadFailed(detail))
    case Read(sheet) => ReadContacts(sheet)
  }
}

=== FILE: headers.dfy ===
/** Column resolution in `load_contacts` (lines 324-348): find the two
    required columns of a spreadsheet by their exact names or, failing that,
    through a fixed table of lower-cased synonyms. */
module Headers {
  import opened Wrappers
  import opened Text

  const NameColumn: string := "Nome"
  const PhoneColumn: string := "N\U{FA}mero de Telefone"

  /** The required columns, in the order the error message lists them. */
  const RequiredColumns: seq<string> := [NameColumn, PhoneColumn]

  /** Lower-cased, trimmed header spellings accepted for the required columns. */
  const Synonyms: map<string, string> := map[
    "nome" := NameColumn,
    "name" := NameColumn,
    "numero" := PhoneColumn,
    "telefone" := PhoneColumn,
    "phone" := PhoneColumn,
    "celular" := PhoneColumn
  ]

  /** Why the required columns could not be located. */
  datatype ColumnError =
    | MissingColumns(names: seq<string>)
    | DuplicateColumn(column: string)

  // ---------------------------------------------------------------------------
  // Header resolution
  // ---------------------------------------------------------------------------

  /** `col.lower().strip()` */
  function SynonymKey(header: string): string {
    Strip(AsciiLower(header))
  }

  /** What a single header becomes once the synonym table has been applied. */
  function Renamed(header: string): string {
    var key := SynonymKey(header);
    if key in Synonyms then Synonyms[key] else header
  }

  /** `df.rename(columns={from: to}, inplace=True)`: every column labelled
      `from` is relabelled `to`, the others keep their label. */
  function RenameColumn(cols: seq<string>, from: string, to: string): (r: seq<string>)
    ensures |r| == |cols|
    ensures forall k :: 0 <= k < |cols| ==> r[k] == (if cols[k] == from then to else cols[k])
  {
    if cols == [] then []
    else [if cols[0] == from then to else cols[0]] + RenameColumn(cols[1..], from, to)
  }

  /** The renaming loop: `for col in df.columns` iterates over the header list
      as it was before the loop (`pending`), while each rename acts on the
      current labels (`cols`). */
  function RenameLoop(cols: seq<string>, pending: seq<string>): (r: seq<string>)
    ensures |r| == |cols|
    decreases |pending|
  {
    if pending == [] then cols
    else
      var key := SynonymKey(pending[0]);
      var next := if key in Synonyms then RenameColumn(cols, pending[0], Synonyms[key]) else cols;
      RenameLoop(next, pending[1..])
  }

  /** `[col for col in required_cols if col not in df.columns]` */
  function Missing(cols: seq<string>): (m: seq<string>)
    ensures m == (if NameColumn in cols then [] else [NameColumn])
               + (if PhoneColumn in cols then [] else [PhoneColumn])
  {
    var rest := RequiredColumns[1..];
    assert rest == [PhoneColumn] && rest[1..] == [];
    assert MissingFrom(rest, cols) == (if PhoneColumn in cols then [] else [PhoneColumn]);
    MissingFrom(RequiredColumns, cols)
  }

  function MissingFrom(required: seq<string>, cols: seq<string>): (m: seq<string>)
    ensures forall c :: c in m <==> c in required && c !in cols
  {
    if required == [] then []
    else (if required[0] in cols then [] else [required[0]]) + MissingFrom(required[1..], cols)
  }

  /** The header list after lines 324-343: unchanged when both required
      columns are present under their exact names, renamed otherwise. */
  function ResolveHeaders(headers: seq<string>): (r: seq<string>)
    ensures |r| == |headers|
    ensures Missing(headers) == [] ==> r == headers
  {
    if Missing(headers) == [] then headers else RenameLoop(headers, headers)
  }

  lemma NameColumnKey()
    ensures SynonymKey(NameColumn) == "nome"
  {
    var lower := AsciiLower(NameColumn);
    assert lower == "nome";
    StripTrimmed(lower);
  }

  /** A key with an accented second letter is not in the synonym table. */
  lemma NotASynonym(key: string)
    requires |key| >= 2 && key[1] == '\U{FA}'
    ensures key !in Synonyms
  {
  }

  /** The exact phone column name is not itself a synonym: its key keeps the
      accented letter, which no synonym contains. */
  lemma PhoneColumnKey()
    ensures SynonymKey(PhoneColumn) !in Synonyms
  {
    AccentedKey(PhoneColumn);
  }

  lemma AccentedKey(h: string)
    requires |h| >= 2 && h[1] == '\U{FA}' && !IsSpace(h[0]) && !IsSpace(h[|h| - 1])
    ensures SynonymKey(h) !in Synonyms
  {
    var lower := AsciiLower(h);
    LowerKeepsSpace(h[0]);
    LowerKeepsSpace(h[|h| - 1]);
    assert Trimmed(lower) && lower[1] == '\U{FA}';
    StripTrimmed(lower);
    NotASynonym(SynonymKey(h));
  }

  /** Every synonym points at one of the two required names. */
  lemma SynonymTargets(key: string)
    requires key in Synonyms
    ensures Synonyms[key] == NameColumn || Synonyms[key] == PhoneColumn
  {
  }

  /** Renaming a required name leaves it as it is: "Nome" is its own
      synonym target, and the phone column's name is no synonym at all. */
  lemma RequiredNamesFixed()
    ensures Renamed(NameColumn) == NameColumn
    ensures Renamed(PhoneColumn) == PhoneColumn
  {
    NameColumnFixed();
    PhoneColumnFixed();
  }

  lemma NameColumnFixed()
    ensures Renamed(NameColumn) == NameColumn
  {
    NameColumnKey();
    NomeIsSynonym();
  }

  lemma NomeIsSynonym()
    ensures "nome" in Synonyms && Synonyms["nome"] == NameColumn
  {
  }

  lemma PhoneColumnFixed()
    ensures Renamed(PhoneColumn) == PhoneColumn
  {
    PhoneColumnKey();
  }

  /** A header that `Renamed` changes becomes one of the required names. */
  lemma RenameTargetsAreFixed(h: string)
    ensures Renamed(h) == h || Renamed(h) == NameColumn || Renamed(h) == PhoneColumn
  {
    var key := SynonymKey(h);
    if key in Synonyms {
      SynonymTargets(key);
    }
  }

  /** Applying the synonym table twice is applying it once: a relabelled
      column already carries a required name, which stays as it is. */
  lemma RenamedIdempotent(h: string)
    ensures Renamed(Renamed(h)) == Renamed(h)
  {
    RenameTargetsAreFixed(h);
    RequiredNamesFixed();
  }

  /** One pass of the loop body is `RenameColumn(cols, h, Renamed(h))`: when
      the key is not a synonym, `Renamed(h) == h` and nothing moves. */
  lemma LoopBodyIsRename(cols: seq<string>, h: string)
    ensures (if SynonymKey(h) in Synonyms then RenameColumn(cols, h, Synonyms[SynonymKey(h)]) else cols)
            == RenameColumn(cols, h, Renamed(h))
  {
    var key := SynonymKey(h);
    if key !in Synonyms {
      assert Renamed(h) == h;
      RenameToSelf(cols, h);
    }
  }

  lemma RenameToSelf(cols: seq<string>, h: string)
    ensures RenameColumn(cols, h, h) == cols
  {
    var r := RenameColumn(cols, h, h);
    assert forall k :: 0 <= k < |cols| ==> r[k] == cols[k];
  }

  /** The loop invariant of the renaming loop, for any relabelling `f`: a
      column whose original label has been visited carries `f` of it, the
      others their original label. */
  ghost predicate RelabelledSoFar(f: string -> string, headers: seq<string>, cols: seq<string>, visited: seq<string>) {
    && |cols| == |headers|
    && forall k :: 0 <= k < |headers| ==>
         cols[k] == (if headers[k] in visited then f(headers[k]) else headers[k])
  }

  /** Relabelling every column named `h` by `f(h)` keeps the invariant, as
      long as `f` leaves the labels it produces for these headers alone. */
  lemma RelabelStep(f: string -> string, headers: seq<string>, cols: seq<string>,
                    visited: seq<string>, h: string)
    requires forall k :: 0 <= k < |headers| ==> f(f(headers[k])) == f(headers[k])
    requires RelabelledSoFar(f, headers, cols, visited)
    ensures RelabelledSoFar(f, headers, RenameColumn(cols, h, f(h)), visited + [h])
  {
    var next := RenameColumn(cols, h, f(h));
    forall k | 0 <= k < |headers|
      ensures next[k] == (if headers[k] in visited + [h] then f(headers[k]) else headers[k])
    {
      RelabelAt(f, headers[k], cols[k], visited, h);
    }
  }

  /** `RelabelStep` for one column, whose original label is `hk` and whose
      current label is `ck`. */
  lemma RelabelAt(f: string -> string, hk: string, ck: string, visited: seq<string>, h: string)
    requires f(f(hk)) == f(hk)
    requires ck == (if hk in visited then f(hk) else hk)
    ensures (if ck == h then f(h) else ck) == (if hk in visited + [h] then f(hk) else hk)
  {
    assert hk in visited + [h] <==> hk in visited || hk == h;
  }

  lemma ShiftHead<T>(done: seq<T>, pending: seq<T>)
    requires pending != []
    ensures done + [pending[0]] + pending[1..] == done + pending
  {
  }

  /** The renaming loop with an arbitrary relabelling `f` in place of the
      synonym table. */
  function Relabel(cols: seq<string>, pending: seq<string>, f: string -> string): (r: seq<string>)
    ensures |r| == |cols|
    decreases |pending|
  {
    if pending == [] then cols
    else Relabel(RenameColumn(cols, pending[0], f(pending[0])), pending[1..], f)
  }

  /** The renaming loop is `Relabel` with `Renamed`. */
  lemma {:induction false} LoopIsRelabel(cols: seq<string>, pending: seq<string>)
    ensures RenameLoop(cols, pending) == Relabel(cols, pending, Renamed)
    decreases |pending|
  {
    if pending != [] {
      var h := pending[0];
      LoopBodyIsRename(cols, h);
      LoopIsRelabel(RenameColumn(cols, h, Renamed(h)), pending[1..]);
    }
  }

  /** The loop invariant holds to the end of the loop, for any relabelling
      that leaves its own results alone. */
  lemma {:induction false} RelabelInvariant(f: string -> string, headers: seq<string>, cols: seq<string>,
                                            visited: seq<string>, pending: seq<string>)
    requires forall k :: 0 <= k < |headers| ==> f(f(headers[k])) == f(headers[k])
    requires RelabelledSoFar(f, headers, cols, visited)
    ensures RelabelledSoFar(f, headers, Relabel(cols, pending, f), visited + pending)
    decreases |pending|
  {
    if pending != [] {
      var h := pending[0];
      RelabelStep(f, headers, cols, visited, h);
      RelabelInvariant(f, headers, RenameColumn(cols, h, f(h)), visited + [h], pending[1..]);
      ShiftHead(visited, pending);
    }
  }

  /** Relabelling by every header relabels every column. */
  lemma RelabelAll(f: string -> string, headers: seq<string>)
    requires forall k :: 0 <= k < |headers| ==> f(f(headers[k])) == f(headers[k])
    ensures forall k :: 0 <= k < |headers| ==> Relabel(headers, headers, f)[k] == f(headers[k])
  {
    var r := Relabel(headers, headers, f);
    RelabelInvariant(f, headers, headers, [], headers);
    assert [] + headers == headers;
    forall k | 0 <= k < |headers|
      ensures r[k] == f(headers[k])
    {
      VisitedAt(f, headers, r, k);
    }
  }

  lemma VisitedAt(f: string -> string, headers: seq<string>, cols: seq<string>, k: nat)
    requires RelabelledSoFar(f, headers, cols, headers) && k < |headers|
    ensures cols[k] == f(headers[k])
  {
    assert headers[k] in headers;
  }

  /** The renaming loop over all headers relabels every column by `Renamed`. */
  lemma RenamedEverywhere(headers: seq<string>)
    ensures |RenameLoop(headers, headers)| == |headers|
    ensures forall k :: 0 <= k < |headers| ==> RenameLoop(headers, headers)[k] == Renamed(headers[k])
  {
    LoopIsRelabel(headers, headers);
    forall k | 0 <= k < |headers|
      ensures Renamed(Renamed(headers[k])) == Renamed(headers[k])
    {
      RenamedIdempotent(headers[k]);
    }
    RelabelAll(Renamed, headers);
  }

  /** Header resolution, lines 324-343: when a required column is missing
      under its exact name, a header is relabelled exactly when its
      lower-cased, trimmed form is a key of the synonym table, and every
      other header is left untouched. */
  lemma ResolveHeadersPointwise(headers: seq<string>)
    requires Missing(headers) != []
    ensures forall k :: 0 <= k < |headers| ==>
              && (SynonymKey(headers[k]) in Synonyms ==> ResolveHeaders(headers)[k] == Synonyms[SynonymKey(headers[k])])
              && (SynonymKey(headers[k]) !in Synonyms ==> ResolveHeaders(headers)[k] == headers[k])
  {
    assert ResolveHeaders(headers) == RenameLoop(headers, headers);
    RenamedEverywhere(headers);
    forall k | 0 <= k < |headers|
      ensures SynonymKey(headers[k]) in Synonyms ==> ResolveHeaders(headers)[k] == Synonyms[SynonymKey(headers[k])]
      ensures SynonymKey(headers[k]) !in Synonyms ==> ResolveHeaders(headers)[k] == headers[k]
    {
      RenamedCases(headers[k]);
    }
  }

  lemma RenamedCases(h: string)
    ensures SynonymKey(h) in Synonyms ==> Renamed(h) == Synonyms[SynonymKey(h)]
    ensures SynonymKey(h) !in Synonyms ==> Renamed(h) == h
  {
  }

  // ---------------------------------------------------------------------------
  // Locating the required columns
  // ---------------------------------------------------------------------------

  /** Position of the first column labelled `name`. */
  function IndexOf(cols: seq<string>, name: string): (r: Option<nat>)
    ensures r.None? <==> name !in cols
    ensures r.Some? ==> r.value < |cols| && cols[r.value] == name && name !in cols[..r.value]
  {
    if cols == [] then None
    else if cols[0] == name then Some(0)
    else match IndexOf(cols[1..], name)
      case None => None
      case Some(i) => assert cols[1..][..i] == cols[1..i + 1]; Some(i + 1)
  }

  /** Where the two required columns sit in the resolved header list. */
  datatype Columns = Columns(name: nat, phone: nat)

  /** The only column labelled `name` in `cols`. */
  predicate UniqueAt(cols: seq<string>, name: string, k: nat) {
    && k < |cols| && cols[k] == name
    && forall j :: 0 <= j < |cols| && cols[j] == name ==> j == k
  }

  /** `name` labels two different columns of `cols`. */
  predicate Repeated(cols: seq<string>, name: string) {
    exists j, k :: 0 <= j < k < |cols| && cols[j] == name && cols[k] == name
  }

  /** Lines 324-352: resolve the headers, then fail with the list of missing
      required names (in required order); otherwise each required name must
      label exactly one column, since a second column under the same name
      makes pandas hand back a frame whose `.str` accessor does not exist.
      The columns are found exactly when both required names label one
      column each. */
  function LocateColumns(headers: seq<string>): (r: Result<Columns, ColumnError>)
    ensures (r.Err? && r.error.MissingColumns?) <==> Missing(ResolveHeaders(headers)) != []
    ensures r.Err? && r.error.MissingColumns? ==> r.error.names == Missing(ResolveHeaders(headers))
    ensures r.Err? && r.error.DuplicateColumn? ==>
              r.error.column in RequiredColumns && Repeated(ResolveHeaders(headers), r.error.column)
    ensures r.Ok? <==> (&& Missing(ResolveHeaders(headers)) == []
                        && !Repeated(ResolveHeaders(headers), NameColumn)
                        && !Repeated(ResolveHeaders(headers), PhoneColumn))
    ensures r.Ok? ==> (&& UniqueAt(ResolveHeaders(headers), NameColumn, r.value.name)
                       && UniqueAt(ResolveHeaders(headers), PhoneColumn, r.value.phone))
  {
    var cols := ResolveHeaders(headers);
    var missing := Missing(cols);
    if missing != [] then Err(MissingColumns(missing))
    else
      var name := IndexOf(cols, NameColumn).value;
      var phone := IndexOf(cols, PhoneColumn).value;
      if NameColumn in cols[name + 1..] then
        LaterOccurrence(cols, NameColumn, name);
        Err(DuplicateColumn(NameColumn))
      else if PhoneColumn in cols[phone + 1..] then
        LaterOccurrence(cols, PhoneColumn, phone);
        Err(DuplicateColumn(PhoneColumn))
      else
        OnlyOccurrence(cols, NameColumn, name);
        OnlyOccurrence(cols, PhoneColumn, phone);
        UniqueNotRepeated(cols, NameColumn, name);
        UniqueNotRepeated(cols, PhoneColumn, phone);
        Ok(Columns(name, phone))
  }

  /** A label at `i` that occurs again after `i` is repeated. */
  lemma LaterOccurrence(cols: seq<string>, name: string, i: nat)
    requires i < |cols| && cols[i] == name && name in cols[i + 1..]
    ensures Repeated(cols, name)
  {
    var m :| 0 <= m < |cols[i + 1..]| && cols[i + 1..][m] == name;
    assert cols[i + 1 + m] == name;
  }

  /** A label that occurs at one position only is not repeated. */
  lemma UniqueNotRepeated(cols: seq<string>, name: string, k: nat)
    requires UniqueAt(cols, name, k)
    ensures !Repeated(cols, name)
  {
  }

  /** A label found at `k` and neither before nor after it labels only `k`. */
  lemma OnlyOccurrence(cols: seq<string>, name: string, k: nat)
    requires k < |cols| && cols[k] == name
    requires name !in cols[..k] && name !in cols[k + 1..]
    ensures UniqueAt(cols, name, k)
  {
    forall j | 0 <= j < |cols| && cols[j] == name
      ensures j == k
    {
      Elsewhere(cols, j, k);
    }
  }

  /** A column other than `k` lies before or after it. */
  lemma Elsewhere(cols: seq<string>, j: nat, k: nat)
    ensures j < k <= |cols| ==> cols[j] in cols[..k]
    ensures k < j < |cols| ==> cols[j] in cols[k + 1..]
  {
    if j < k <= |cols| {
      assert cols[..k][j] == cols[j];
    }
    if k < j < |cols| {
      assert cols[k + 1..][j - k - 1] == cols[j];
    }
  }

}

=== FILE: percent.dfy ===
/** `urllib.parse.quote(message, safe='')` (line 415): encode the text as
    UTF-8, keep the bytes of RFC 3986 unreserved characters (section 2.3) and
    write every other byte as '%' and two upper-case hexadecimal digits
    (section 2.1). With `safe=''` nothing else is spared, '/' included. */
module Percent {
  import opened Wrappers
  import Utf8

  type Byte = Utf8.Byte

  /** RFC 3986 section 2.3: `A-Z a-z 0-9 - . _ ~`. */
  predicate IsUnreserved(c: char) {
    || ('A' <= c <= 'Z') || ('a' <= c <= 'z') || ('0' <= c <= '9')
    || c == '-' || c == '.' || c == '_' || c == '~'
  }

  predicate IsUpperHex(c: char) {
    ('0' <= c <= '9') || ('A' <= c <= 'F')
  }

  predicate IsHex(c: char) {
    IsUpperHex(c) || ('a' <= c <= 'f')
  }

  function HexDigit(n: int): (c: char)
    requires 0 <= n < 16
    ensures IsUpperHex(c)
  {
    if n < 10 then ('0' as int + n) as char else ('A' as int + n - 10) as char
  }

  function HexValue(c: char): (n: int)
    requires IsHex(c)
    ensures 0 <= n < 16
  {
    if '0' <= c <= '9' then c as int - '0' as int
    else if 'A' <= c <= 'F' then c as int - 'A' as int + 10
    else c as int - 'a' as int + 10
  }

  /** The byte an unreserved character stands for. */
  function ByteOf(c: char): Byte
    requires IsUnreserved(c)
  {
    c as int
  }

  /** A byte whose character is unreserved is written as that character. */
  predicate IsUnreservedByte(b: Byte) {
    IsUnreserved(b as char)
  }

  function EncodeByte(b: Byte): string {
    if IsUnreservedByte(b) then [b as char] else ['%', HexDigit(b / 16), HexDigit(b % 16)]
  }

  /** `quote_from_bytes(bs, safe='')` */
  function PercentEncode(bs: seq<Byte>): string {
    if bs == [] then [] else EncodeByte(bs[0]) + PercentEncode(bs[1..])
  }

  /** `quote(s, safe='')` */
  function Quote(s: string): string {
    PercentEncode(Utf8.Encode(s))
  }

  /** The shape of `quote`'s output: unreserved characters, and '%' triples
      with upper-case digits for every byte that is not one. */
  predicate Canonical(t: string)
    decreases |t|
  {
    if t == [] then true
    else if IsUnreserved(t[0]) then Canonical(t[1..])
    else
      && |t| >= 3 && t[0] == '%' && IsUpperHex(t[1]) && IsUpperHex(t[2])
      && !IsUnreservedByte(16 * HexValue(t[1]) + HexValue(t[2]))
      && Canonical(t[3..])
  }

  /** Reverses percent-encoding; `None` for a character that may not appear
      unescaped or a malformed escape. Either case of hex digit is read. */
  function PercentDecode(t: string): Option<seq<Byte>>
    decreases |t|
  {
    if t == [] then Some([])
    else if IsUnreserved(t[0]) then
      match PercentDecode(t[1..])
      case None => None
      case Some(rest) => Some([ByteOf(t[0])] + rest)
    else if |t| >= 3 && t[0] == '%' && IsHex(t[1]) && IsHex(t[2]) then
      match PercentDecode(t[3..])
      case None => None
      case Some(rest) => Some([16 * HexValue(t[1]) + HexValue(t[2])] + rest)
    else None
  }

  lemma HexRoundTrip(n: int)
    requires 0 <= n < 16
    ensures HexValue(HexDigit(n)) == n
  {
  }

  lemma ByteRoundTrip(b: Byte)
    ensures 16 * HexValue(HexDigit(b / 16)) + HexValue(HexDigit(b % 16)) == b
  {
    HexRoundTrip(b / 16);
    HexRoundTrip(b % 16);
  }

  /** Every byte's encoding, followed by anything canonical, is canonical. */
  lemma EncodeByteCanonical(b: Byte, rest: string)
    requires Canonical(rest)
    ensures Canonical(EncodeByte(b) + rest)
  {
    var t := EncodeByte(b) + rest;
    if IsUnreservedByte(b) {
      assert t[1..] == rest;
    } else {
      ByteRoundTrip(b);
      assert t[3..] == rest;
    }
  }

  /** `quote` only ever produces unreserved characters and upper-case '%'
      triples. */
  lemma {:induction false} EncodeCanonical(bs: seq<Byte>)
    ensures Canonical(PercentEncode(bs))
    decreases |bs|
  {
    if bs != [] {
      EncodeCanonical(bs[1..]);
      EncodeByteCanonical(bs[0], PercentEncode(bs[1..]));
    }
  }

  /** Decoding one byte's encoding gives the byte back, whatever follows. */
  lemma DecodeEncodeByte(b: Byte, rest: string)
    ensures PercentDecode(EncodeByte(b) + rest) ==
              match PercentDecode(rest)
              case None => None
              case Some(bs) => Some([b] + bs)
  {
    var t := EncodeByte(b) + rest;
    if IsUnreservedByte(b) {
      assert t[1..] == rest;
    } else {
      ByteRoundTrip(b);
      assert t[3..] == rest;
    }
  }

  /** Percent-decoding undoes percent-encoding. */
  lemma {:induction false} DecodeEncode(bs: seq<Byte>)
    ensures PercentDecode(PercentEncode(bs)) == Some(bs)
    decreases |bs|
  {
    if bs != [] {
      DecodeEncode(bs[1..]);
      DecodeEncodeByte(bs[0], PercentEncode(bs[1..]));
      assert [bs[0]] + bs[1..] == bs;
    }
  }

  /** Every canonical string is the encoding of the bytes it decodes to, so
      the encoded forms are exactly the canonical strings. */
  lemma {:induction false} EncodeDecode(t: string)
    requires Canonical(t)
    ensures PercentDecode(t).Some? && PercentEncode(PercentDecode(t).value) == t
    decreases |t|
  {
    if t != [] {
      if IsUnreserved(t[0]) {
        var rest := t[1..];
        EncodeDecode(rest);
        assert PercentDecode(t) == Some([ByteOf(t[0])] + PercentDecode(rest).value);
        UnreservedReencodes(t[0], PercentDecode(rest).value);
        assert t == [t[0]] + rest;
      } else {
        var rest := t[3..];
        EncodeDecode(rest);
        var b := 16 * HexValue(t[1]) + HexValue(t[2]);
        assert PercentDecode(t) == Some([b] + PercentDecode(rest).value);
        EscapeReencodes(t);
        assert PercentEncode([b] + PercentDecode(rest).value) == EncodeByte(b) + PercentEncode(PercentDecode(rest).value);
        assert t == t[..3] + rest;
      }
    }
  }

  lemma UnreservedReencodes(c: char, rest: seq<Byte>)
    requires IsUnreserved(c)
    ensures PercentEncode([ByteOf(c)] + rest) == [c] + PercentEncode(rest)
  {
    assert ([ByteOf(c)] + rest)[1..] == rest;
  }

  /** A canonical escape is what `EncodeByte` writes for its byte. */
  lemma EscapeReencodes(t: string)
    requires |t| >= 3 && t[0] == '%' && IsUpperHex(t[1]) && IsUpperHex(t[2])
    requires !IsUnreservedByte(16 * HexValue(t[1]) + HexValue(t[2]))
    ensures EncodeByte(16 * HexValue(t[1]) + HexValue(t[2])) == t[..3]
  {
    var hi, lo := HexValue(t[1]), HexValue(t[2]);
    var b := 16 * hi + lo;
    assert b / 16 == hi && b % 16 == lo;
    assert HexDigit(hi) == t[1] && HexDigit(lo) == t[2];
  }

  /** `quote(message, safe='')` followed by decoding yields the message's
      UTF-8 bytes, and from those the message itself. */
  lemma QuoteRoundTrip(s: string)
    ensures PercentDecode(Quote(s)) == Some(Utf8.Encode(s))
    ensures Utf8.Decode(PercentDecode(Quote(s)).value) == Some(s)
  {
    DecodeEncode(Utf8.Encode(s));
    Utf8.DecodeEncode(s);
  }

  /** With `safe=''`, '/' and '+' are escaped too; the space becomes "%20",
      never '+'. */
  lemma ReservedEscaped()
    ensures Quote("/") == "%2F"
    ensures Quote("+") == "%2B"
    ensures Quote(" ") == "%20"
  {
    assert Utf8.Encode("/") == [0x2F];
    assert Utf8.Encode("+") == [0x2B];
    assert Utf8.Encode(" ") == [0x20];
  }

  /** Text made of unreserved characters is sent as it is. */
  lemma {:induction false} QuoteUnreserved(s: string)
    requires forall k :: 0 <= k < |s| ==> IsUnreserved(s[k])
    ensures Quote(s) == s
    decreases |s|
  {
    if s != [] {
      QuoteUnreserved(s[1..]);
      assert Utf8.Encode(s) == [s[0] as int] + Utf8.Encode(s[1..]);
      assert Quote(s) == [s[0]] + Quote(s[1..]);
    }
  }
}

=== FILE: phone.dfy ===
/** Phone-number cleaning (line 356 of `load_contacts`): the regular
    expression `[^\d+]` deletes every character that is not a digit or '+'.
    Digits are the ASCII digits. */
module Phone {
  import opened Text

  /** The characters `re.sub(r'[^\d+]', '', ...)` keeps (ASCII digits). */
  predicate IsPhoneChar(c: char) {
    '0' <= c <= '9' || c == '+'
  }

  predicate IsPhoneNumber(s: string) {
    forall k :: 0 <= k < |s| ==> IsPhoneChar(s[k])
  }

  /** Line 356: delete every character other than a digit or '+'. */
  function CleanPhone(s: string): (r: string)
    ensures IsPhoneNumber(r)
    ensures |r| <= |s|
  {
    if s == [] then []
    else (if IsPhoneChar(s[0]) then [s[0]] else []) + CleanPhone(s[1..])
  }

  /** `a` is `b` with some characters deleted. */
  predicate IsSubsequence(a: string, b: string)
    decreases |b|
  {
    || a == []
    || (b != [] && ((a[0] == b[0] && IsSubsequence(a[1..], b[1..])) || IsSubsequence(a, b[1..])))
  }

  /** Cleaning distributes over concatenation: it looks at each character
      on its own. */
  lemma {:induction false} CleanPhoneAppend(a: string, b: string)
    ensures CleanPhone(a + b) == CleanPhone(a) + CleanPhone(b)
    decreases |a|
  {
    if a == [] {
      assert a + b == b;
    } else {
      var head := if IsPhoneChar(a[0]) then [a[0]] else [];
      assert (a + b)[0] == a[0] && (a + b)[1..] == a[1..] + b;
      assert CleanPhone(a + b) == head + CleanPhone(a[1..] + b);
      CleanPhoneAppend(a[1..], b);
    }
  }

  /** A string is left unchanged by cleaning exactly when it already consists
      of digits and '+' only. */
  lemma {:induction false} CleanPhoneFixpoint(s: string)
    ensures CleanPhone(s) == s <==> IsPhoneNumber(s)
    decreases |s|
  {
    if s != [] {
      CleanPhoneFixpoint(s[1..]);
      if !IsPhoneChar(s[0]) {
        assert |CleanPhone(s)| < |s|;
      }
    }
  }

  /** Cleaning twice is cleaning once. */
  lemma CleanPhoneIdempotent(s: string)
    ensures CleanPhone(CleanPhone(s)) == CleanPhone(s)
  {
    CleanPhoneFixpoint(CleanPhone(s));
  }

  /** The cleaned phone keeps the input's characters in their original order. */
  lemma {:induction false} CleanPhoneSubsequence(s: string)
    ensures IsSubsequence(CleanPhone(s), s)
    decreases |s|
  {
    if s != [] {
      CleanPhoneSubsequence(s[1..]);
      var rest := CleanPhone(s[1..]);
      if IsPhoneChar(s[0]) {
        assert CleanPhone(s) == [s[0]] + rest;
        assert ([s[0]] + rest)[1..] == rest;
      } else {
        assert CleanPhone(s) == rest;
      }
    }
  }

  /** Every digit and every '+' of the input survives, as often as it
      occurs; every other character is gone. Together with
      `CleanPhoneSubsequence` this says the result is exactly the
      subsequence of digits and '+'. */
  lemma {:induction false} CleanPhoneCounts(s: string, c: char)
    ensures multiset(CleanPhone(s))[c] == if IsPhoneChar(c) then multiset(s)[c] else 0
    decreases |s|
  {
    if s != [] {
      CleanPhoneCounts(s[1..], c);
      assert s == [s[0]] + s[1..];
      assert multiset(s) == multiset([s[0]]) + multiset(s[1..]);
    }
  }

  /** A '+' is kept wherever it stands, not only in front: nothing checks
      that it is a leading international prefix. */
  lemma PlusKeptAnywhere(a: string, b: string)
    ensures CleanPhone(a + "+" + b) == CleanPhone(a) + "+" + CleanPhone(b)
  {
    CleanPhoneAppend(a + "+", b);
    CleanPhoneAppend(a, "+");
    assert CleanPhone("+") == "+";
  }

  /** White space is never a phone character, so the `strip()` before the
      cleaning (line 353) does not affect the cleaned number. */
  lemma CleanPhoneIgnoresStrip(s: string)
    ensures CleanPhone(Strip(s)) == CleanPhone(s)
  {
    var i := StripIsInfix(s);
    CleanPhoneSurround(s[..i], Strip(s), s[i + |Strip(s)|..]);
  }

  lemma CleanPhoneSurround(before: string, middle: string, after: string)
    requires AllSpace(before) && AllSpace(after)
    ensures CleanPhone(before + middle + after) == CleanPhone(middle)
  {
    CleanPhoneAppend(before + middle, after);
    CleanPhoneAppend(before, middle);
    CleanSpace(before);
    CleanSpace(after);
  }

  lemma {:induction false} CleanSpace(s: string)
    requires AllSpace(s)
    ensures CleanPhone(s) == []
    decreases |s|
  {
    if s != [] {
      CleanSpace(s[1..]);
    }
  }

}

=== FILE: session.dfy ===
/** The send session of `WhatsAppSender` as a transition system: the state
    the widget keeps (`is_sending`, `current_index`, the loaded contacts, the
    three buttons' `disabled` flags) and one function per handler
    (`start_sending`, `validate_inputs`, `process_current_contact`,
    `next_contact`, `auto_next`, `stop_sending`, `finish_sending`, and the
    state change of `load_contacts`). The widget tree is replaced by the
    event that reaches a handler and the output the user sees.

    Two things the handlers depend on come from outside: whether
    `webbrowser.open` raised, carried by the event, and the five-second
    timer, counted in `timers` and fired by a `TimerFires` event. */
module Session {
  import opened Wrappers
  import opened Text
  import Contacts
  import ChatLink

  /** The `disabled` flags of the send, next and stop buttons. */
  datatype Buttons = Buttons(sendDisabled: bool, nextDisabled: bool, stopDisabled: bool)

  /** Buttons while no run is in progress (also the initial layout). */
  const Idle: Buttons := Buttons(false, true, true)

  /** Buttons during a run. */
  const Running: Buttons := Buttons(true, false, false)

  datatype App = App(
    message: string,            // message_input.text
    autoMode: bool,             // auto_mode
    contacts: seq<Contacts.Contact>,  // contacts_data
    index: nat,                 // current_index
    sending: bool,              // is_sending
    buttons: Buttons,
    timers: nat                 // scheduled auto_next calls not yet fired
  )

  const Initial: App := App("", false, [], 0, false, Idle, 0)

  /** What an event shows the user. */
  datatype Output =
    | Quiet
    | Opened(template: string, contact: Contacts.Contact)      // webbrowser.open(Url(..))
    | OpenFailed(template: string, contact: Contacts.Contact)  // the open raised: error popup
    | Refused(reason: string)          // validate_inputs popup
    | Completed(count: nat)            // finish_sending popup
    | Stopped(sent: nat, total: nat)   // stop_sending status line
    | Loaded(count: nat)               // "<n> contatos carregados"
    | LoadFailed(error: Contacts.LoadError)

  /** The address handed to `webbrowser.open` for a chat output: the
      message as typed, personalised for the contact and encoded. */
  function Url(o: Output): (url: string)
    requires o.Opened? || o.OpenFailed?
  {
    ChatLink.Link(o.template, o.contact)
  }

  datatype Step = Step(app: App, out: Output)

  datatype Event =
    | EditMessage(text: string)
    | ToggleMode(on: bool)
    | SelectFile(loaded: Result<seq<Contacts.Contact>, Contacts.LoadError>)  // always Contacts.Load of the chosen file: see FileChosen
    | PressSend(browserOk: bool)
    | PressNext(browserOk: bool)
    | PressStop
    | TimerFires(browserOk: bool)

  /** The event the file picker produces (`file_selected`, lines 294-297):
      the chosen file goes through `Contacts.Load`, so a `SelectFile` that
      loads records carries clean ones, and `NoValidContacts` is never its
      error (the empty result is `Ok([])`). */
  function FileChosen(read: Contacts.ReadOutcome): (e: Event)
    ensures e.SelectFile? && e.loaded == Contacts.Load(read)
    ensures e.loaded.Ok? ==> forall c | c in e.loaded.value :: Contacts.Clean(c)
    ensures e.loaded.Err? ==> !e.loaded.error.NoValidContacts?
  {
    SelectFile(Contacts.Load(read))
  }

  /** "send disabled <==> is_sending <==> next and stop enabled" */
  predicate ButtonsAgree(a: App) {
    && a.buttons.sendDisabled == a.sending
    && a.buttons.nextDisabled == !a.sending
    && a.buttons.stopDisabled == !a.sending
  }

  /** The session invariant. While a run is in progress the cursor points at
      a contact, except right after an empty sheet was loaded mid-run. */
  predicate Inv(a: App) {
    && ButtonsAgree(a)
    && (a.sending ==> a.index < |a.contacts| || (a.index == 0 && a.contacts == []))
  }

  const BlankMessage: string := "Por favor, digite uma mensagem"
  const NoSheet: string := "Por favor, selecione uma planilha v\U{E1}lida"

  /** `validate_inputs` (lines 390-400): the popup text, if it refuses. */
  function ValidateInputs(a: App): (r: Option<string>)
    ensures r.Some? <==> AllSpace(a.message) || a.contacts == []
    ensures r == Some(BlankMessage) <==> AllSpace(a.message)
    ensures r == Some(NoSheet) <==> !AllSpace(a.message) && a.contacts == []
  {
    StripEmptyIffAllSpace(a.message);
    if Strip(a.message) == [] then Some(BlankMessage)
    else if a.contacts == [] then Some(NoSheet)
    else None
  }

  /** `finish_sending` (lines 469-482). */
  function FinishSending(a: App): (r: Step)
    ensures !r.app.sending && ButtonsAgree(r.app)
    ensures r.app.index == a.index && r.app.contacts == a.contacts && r.app.timers == a.timers
    ensures r.out == Completed(|a.contacts|)
  {
    Step(a.(sending := false, buttons := Idle), Completed(|a.contacts|))
  }

  /** `process_current_contact` (lines 402-439): finish when the cursor is
      past the end, otherwise open the current contact's link and, in
      automatic mode, schedule one `auto_next`. A failed open shows an error
      and schedules nothing. */
  function ProcessCurrent(a: App, browserOk: bool): (r: Step)
    ensures a.index < |a.contacts| ==>
              && r.app == a.(timers := r.app.timers)
              && r.out == (if browserOk then Opened(a.message, a.contacts[a.index])
                           else OpenFailed(a.message, a.contacts[a.index]))
              && r.app.timers == a.timers + (if browserOk && a.autoMode && a.sending then 1 else 0)
    ensures a.index >= |a.contacts| ==> r == FinishSending(a)
  {
    if a.index >= |a.contacts| then FinishSending(a)
    else
      var contact := a.contacts[a.index];
      if !browserOk then Step(a, OpenFailed(a.message, contact))
      else Step(a.(timers := a.timers + if a.autoMode && a.sending then 1 else 0), Opened(a.message, contact))
  }

  /** `start_sending` (lines 374-388). */
  function StartSending(a: App, browserOk: bool): Step {
    match ValidateInputs(a)
    case Some(reason) => Step(a, Refused(reason))
    case None => ProcessCurrent(a.(sending := true, index := 0, buttons := Running), browserOk)
  }

  /** `next_contact` (lines 446-456). */
  function NextContact(a: App, browserOk: bool): Step {
    if !a.sending then Step(a, Quiet)
    else
      var b := a.(index := a.index + 1);
      if b.index < |b.contacts| then ProcessCurrent(b, browserOk) else FinishSending(b)
  }

  /** `auto_next` (lines 441-444). */
  function AutoNext(a: App, browserOk: bool): Step {
    if a.sending then NextContact(a, browserOk) else Step(a, Quiet)
  }

  /** `stop_sending` (lines 458-467). Pending timers are not cancelled. */
  function StopSending(a: App): (r: Step)
    ensures !r.app.sending && ButtonsAgree(r.app)
    ensures r.app.index == a.index && r.app.contacts == a.contacts && r.app.timers == a.timers
    ensures r.out == Stopped(a.index, |a.contacts|)
  {
    Step(a.(sending := false, buttons := Idle), Stopped(a.index, |a.contacts|))
  }

  /** `file_selected` / `load_contacts` (lines 294-362): a failed read or a
      column error leaves the state alone; otherwise the new records replace
      the old ones and the cursor returns to 0 before an empty result is
      reported. Neither `is_sending` nor the buttons change. */
  function LoadContacts(a: App, loaded: Result<seq<Contacts.Contact>, Contacts.LoadError>): Step {
    match loaded
    case Err(e) => Step(a, LoadFailed(e))
    case Ok(records) =>
      var b := a.(contacts := records, index := 0);
      if records == [] then Step(b, LoadFailed(Contacts.NoValidContacts)) else Step(b, Loaded(|records|))
  }

  /** Dispatch: a disabled button does not call its handler; a timer can
      only fire after it was scheduled. */
  function Apply(a: App, e: Event): Step {
    match e
    case EditMessage(text) => Step(a.(message := text), Quiet)
    case ToggleMode(on) => Step(a.(autoMode := on), Quiet)
    case SelectFile(loaded) => LoadContacts(a, loaded)
    case PressSend(ok) => if a.buttons.sendDisabled then Step(a, Quiet) else StartSending(a, ok)
    case PressNext(ok) => if a.buttons.nextDisabled then Step(a, Quiet) else NextContact(a, ok)
    case PressStop => if a.buttons.stopDisabled then Step(a, Quiet) else StopSending(a)
    case TimerFires(ok) => if a.timers == 0 then Step(a, Quiet) else AutoNext(a.(timers := a.timers - 1), ok)
  }

  /** A sequence of events, with the outputs in order. */
  function Run(a: App, events: seq<Event>): (r: (App, seq<Output>))
    ensures |r.1| == |events|
    decreases |events|
  {
    if events == [] then (a, [])
    else
      var s := Apply(a, events[0]);
      var rest := Run(s.app, events[1..]);
      (rest.0, [s.out] + rest.1)
  }

  // ---------------------------------------------------------------------------
  // Properties
  // ---------------------------------------------------------------------------

  lemma InitialInv()
    ensures Inv(Initial)
  {
  }

  /** Kivy does not call the handler of a disabled button. So during a run
      send does nothing and cannot restart the run, and outside a run next
      and stop do nothing. */
  lemma DisabledButtonsIgnored(a: App, ok: bool)
    requires Inv(a)
    ensures a.sending ==> Apply(a, PressSend(ok)) == Step(a, Quiet)
    ensures !a.sending ==> Apply(a, PressNext(ok)) == Step(a, Quiet) && Apply(a, PressStop) == Step(a, Quiet)
  {
  }

  /** Every event keeps the invariant. */
  lemma ApplyKeepsInv(a: App, e: Event)
    requires Inv(a)
    ensures Inv(Apply(a, e).app)
  {
    match e
    case PressSend(ok) => StartKeepsInv(a, ok);
    case PressNext(ok) => NextKeepsInv(a, ok);
    case TimerFires(ok) =>
      if a.timers > 0 {
        NextKeepsInv(a.(timers := a.timers - 1), ok);
      }
    case SelectFile(loaded) => LoadKeepsInv(a, loaded);
    case _ =>
  }

  lemma StartKeepsInv(a: App, ok: bool)
    requires Inv(a)
    ensures Inv(StartSending(a, ok).app)
  {
    if ValidateInputs(a).None? {
      var b := a.(sending := true, index := 0, buttons := Running);
      assert b.index < |b.contacts|;
    }
  }

  lemma NextKeepsInv(a: App, ok: bool)
    requires Inv(a)
    ensures Inv(NextContact(a, ok).app) && Inv(AutoNext(a, ok).app)
  {
  }

  lemma LoadKeepsInv(a: App, loaded: Result<seq<Contacts.Contact>, Contacts.LoadError>)
    requires Inv(a)
    ensures Inv(LoadContacts(a, loaded).app)
  {
  }

  /** Start is refused, with nothing changed, exactly when the trimmed
      message is empty or no contacts are loaded. */
  lemma StartRefused(a: App, ok: bool)
    ensures StartSending(a, ok).out.Refused? <==> AllSpace(a.message) || a.contacts == []
    ensures StartSending(a, ok).out.Refused? ==> StartSending(a, ok).app == a
  {
  }

  /** An accepted start begins a run at the first contact, with send
      disabled and next/stop enabled, and opens the first contact's link. */
  lemma StartAccepted(a: App, ok: bool)
    requires !AllSpace(a.message) && a.contacts != []
    ensures var r := StartSending(a, ok);
            && r.app.sending && r.app.index == 0 && r.app.buttons == Running
            && r.app.contacts == a.contacts && r.app.message == a.message
            && r.out == (if ok then Opened(a.message, a.contacts[0])
                         else OpenFailed(a.message, a.contacts[0]))
  {
  }

  /** Outside a run, next and auto-next change nothing. */
  lemma NextIdle(a: App, ok: bool)
    requires !a.sending
    ensures NextContact(a, ok) == Step(a, Quiet)
    ensures AutoNext(a, ok) == Step(a, Quiet)
  {
  }

  /** During a run, next and auto-next move the cursor forward by exactly one
      and end the run exactly when it reaches the number of contacts. */
  lemma NextAdvances(a: App, ok: bool)
    requires a.sending
    ensures var r := NextContact(a, ok);
            && r == AutoNext(a, ok)
            && r.app.index == a.index + 1
            && r.app.contacts == a.contacts && r.app.message == a.message
            && (r.app.sending <==> a.index + 1 < |a.contacts|)
            && (r.out == Completed(|a.contacts|) <==> a.index + 1 >= |a.contacts|)
  {
  }

  /** Stop and finish end the run and restore the idle buttons. */
  lemma StopAndFinishRestore(a: App)
    ensures StopSending(a).app == a.(sending := false, buttons := Idle)
    ensures FinishSending(a).app == a.(sending := false, buttons := Idle)
  {
  }

  /** Every chat opened is the one of the contact under the cursor, with the
      message as it is at that moment: the address `Url` hands to the
      browser is the link of that contact. */
  lemma OpenedIsCurrent(a: App, e: Event)
    requires Apply(a, e).out.Opened?
    ensures var b := Apply(a, e).app;
            var out := Apply(a, e).out;
            && b.index < |b.contacts|
            && out.contact == b.contacts[b.index] && out.template == b.message
  {
    match e
    case PressSend(ok) =>
      ProcessOpened(a.(sending := true, index := 0, buttons := Running), ok);
    case PressNext(ok) =>
      ProcessOpened(a.(index := a.index + 1), ok);
    case TimerFires(ok) =>
      ProcessOpened(a.(timers := a.timers - 1, index := a.index + 1), ok);
    case _ =>
  }

  /** What `process_current_contact` opens is the contact under the cursor. */
  lemma ProcessOpened(a: App, ok: bool)
    ensures var r := ProcessCurrent(a, ok);
            r.out.Opened? ==>
              && r.app.index == a.index && r.app.contacts == a.contacts && r.app.message == a.message
              && a.index < |a.contacts|
              && r.out.contact == a.contacts[a.index] && r.out.template == a.message
  {
  }

  /** A zero-row sheet empties the contact list and resets the cursor
      before the error is reported: the previous list is not kept. */
  lemma EmptySheetDiscardsContacts(a: App, sheet: Contacts.Sheet)
    requires Contacts.ReadContacts(sheet) == Ok([])
    ensures Apply(a, FileChosen(Contacts.Read(sheet)))
            == Step(a.(contacts := [], index := 0), LoadFailed(Contacts.NoValidContacts))
  {
  }

  /** A load that fails before `contacts_data` is assigned changes nothing;
      one that gets that far replaces the contacts and rewinds the cursor
      and changes nothing else, whether or not a run is in progress. */
  lemma LoadKeepsRun(a: App, loaded: Result<seq<Contacts.Contact>, Contacts.LoadError>)
    ensures loaded.Err? ==> Apply(a, SelectFile(loaded)).app == a
    ensures loaded.Ok? ==> Apply(a, SelectFile(loaded)).app == a.(contacts := loaded.value, index := 0)
    ensures Apply(a, SelectFile(loaded)).out.LoadFailed? <==> loaded.Err? || loaded.value == []
  {
  }

  /** Editing the message and switching the mode change only their own
      field and show nothing. */
  lemma SettingsOnly(a: App, text: string, on: bool)
    ensures Apply(a, EditMessage(text)) == Step(a.(message := text), Quiet)
    ensures Apply(a, ToggleMode(on)) == Step(a.(autoMode := on), Quiet)
  {
  }

  lemma RunCons(a: App, e: Event, rest: seq<Event>)
    ensures Run(a, [e] + rest) == (Run(Apply(a, e).app, rest).0, [Apply(a, e).out] + Run(Apply(a, e).app, rest).1)
  {
    assert ([e] + rest)[0] == e;
    assert ([e] + rest)[1..] == rest;
  }

  /** `k` presses of the next button, each opening successfully. */
  function Presses(k: nat): (es: seq<Event>)
    ensures |es| == k
  {
    if k == 0 then [] else [PressNext(true)] + Presses(k - 1)
  }

  /** The chats opened for `contacts[from..]`, in order. */
  function ChatsFrom(message: string, contacts: seq<Contacts.Contact>, from: nat): seq<Output>
    requires from <= |contacts|
    decreases |contacts| - from
  {
    if from == |contacts| then [] else [Opened(message, contacts[from])] + ChatsFrom(message, contacts, from + 1)
  }

  /** The last press of next in a manual run. */
  lemma ManualRunLast(a: App)
    requires Inv(a) && a.sending && !a.autoMode && a.index + 1 == |a.contacts|
    ensures Run(a, Presses(1))
            == (a.(index := |a.contacts|, sending := false, buttons := Idle), [Completed(|a.contacts|)])
  {
    var s := Apply(a, PressNext(true));
    assert Presses(1) == [PressNext(true)] + [];
    RunCons(a, PressNext(true), []);
    NextCompletes(a);
    assert Run(s.app, []) == (s.app, []);
    assert [s.out] + [] == [Completed(|a.contacts|)];
  }

  /** One press of next in a manual run with a contact left, given the rest
      of the run. */
  lemma ManualRunStep(a: App, rest: (App, seq<Output>))
    requires Inv(a) && a.sending && !a.autoMode && a.index + 1 < |a.contacts|
    requires Run(a.(index := a.index + 1), Presses(|a.contacts| - a.index - 1)) == rest
    ensures Run(a, Presses(|a.contacts| - a.index))
            == (rest.0, [Opened(a.message, a.contacts[a.index + 1])] + rest.1)
  {
    var n := |a.contacts| - a.index;
    var tail := Presses(n - 1);
    assert Presses(n) == [PressNext(true)] + tail;
    RunCons(a, PressNext(true), tail);
    NextStep(a);
    NextOpens(a);
  }

  /** In manual mode, pressing next until the end opens every remaining
      contact's link once, in list order, and then completes the run. */
  lemma {:induction false} ManualRun(a: App)
    requires Inv(a) && a.sending && !a.autoMode && a.index < |a.contacts|
    ensures Run(a, Presses(|a.contacts| - a.index))
            == (a.(index := |a.contacts|, sending := false, buttons := Idle),
                ChatsFrom(a.message, a.contacts, a.index + 1) + [Completed(|a.contacts|)])
    decreases |a.contacts| - a.index
  {
    var done := Completed(|a.contacts|);
    if a.index + 1 == |a.contacts| {
      ManualRunLast(a);
      assert ChatsFrom(a.message, a.contacts, a.index + 1) == [];
      assert [] + [done] == [done];
    } else {
      var b := a.(index := a.index + 1);
      ManualRun(b);
      var rest := Run(b, Presses(|b.contacts| - b.index));
      ManualRunStep(a, rest);
      var head := Opened(a.message, a.contacts[a.index + 1]);
      var links := ChatsFrom(a.message, a.contacts, a.index + 2);
      assert ChatsFrom(a.message, a.contacts, a.index + 1) == [head] + links;
      assert [head] + (links + [done]) == ([head] + links) + [done];
    }
  }

  /** The press of send that opens a manual session, given the rest of it. */
  lemma ManualSessionStart(a: App, rest: (App, seq<Output>))
    requires Inv(a) && !a.sending && !a.autoMode
    requires !AllSpace(a.message) && a.contacts != []
    requires Run(a.(sending := true, index := 0, buttons := Running), Presses(|a.contacts|)) == rest
    ensures Run(a, [PressSend(true)] + Presses(|a.contacts|))
            == (rest.0, [Opened(a.message, a.contacts[0])] + rest.1)
  {
    var b := a.(sending := true, index := 0, buttons := Running);
    SendStep(a);
    SendOpens(a);
    assert Apply(a, PressSend(true)) == Step(b, Opened(a.message, a.contacts[0]));
    RunCons(a, PressSend(true), Presses(|a.contacts|));
  }

  /** A whole manual session: a start followed by one press of next per
      remaining contact opens every contact's link exactly once, in list
      order, and ends with the completion popup. */
  lemma ManualSession(a: App)
    requires Inv(a) && !a.sending && !a.autoMode
    requires !AllSpace(a.message) && a.contacts != []
    ensures Run(a, [PressSend(true)] + Presses(|a.contacts|)).1
            == ChatsFrom(a.message, a.contacts, 0) + [Completed(|a.contacts|)]
  {
    var b := a.(sending := true, index := 0, buttons := Running);
    var rest := Run(b, Presses(|b.contacts| - b.index));
    ManualRun(b);
    ManualSessionStart(a, rest);
    var head := Opened(a.message, a.contacts[0]);
    var links := ChatsFrom(a.message, a.contacts, 1);
    var done := Completed(|a.contacts|);
    assert ChatsFrom(a.message, a.contacts, 0) == [head] + links;
    assert [head] + (links + [done]) == ([head] + links) + [done];
  }

  /** A press of the enabled send button with valid inputs, as a state
      change: a run starts at contact 0, and in automatic mode one more
      `auto_next` is scheduled. */
  lemma SendStep(a: App)
    requires !a.buttons.sendDisabled && !AllSpace(a.message) && a.contacts != []
    ensures Apply(a, PressSend(true)).app
            == a.(sending := true, index := 0, buttons := Running,
                  timers := a.timers + if a.autoMode then 1 else 0)
  {
    var b := a.(sending := true, index := 0, buttons := Running);
    SendIsStart(a);
    assert ProcessCurrent(b, true).app == b.(timers := a.timers + if a.autoMode then 1 else 0);
  }

  /** ... and opens the first contact's chat. */
  lemma SendOpens(a: App)
    requires !a.buttons.sendDisabled && !AllSpace(a.message) && a.contacts != []
    ensures Apply(a, PressSend(true)).out == Opened(a.message, a.contacts[0])
  {
    var b := a.(sending := true, index := 0, buttons := Running);
    SendIsStart(a);
    assert ProcessCurrent(b, true).out == Opened(a.message, a.contacts[0]);
  }

  /** With valid inputs, a press of the enabled send button starts a run and
      processes its first contact. */
  lemma SendIsStart(a: App)
    requires !a.buttons.sendDisabled && !AllSpace(a.message) && a.contacts != []
    ensures Apply(a, PressSend(true)) == ProcessCurrent(a.(sending := true, index := 0, buttons := Running), true)
  {
    Accepts(a);
    PressSendIsStart(a);
  }

  lemma Accepts(a: App)
    requires !AllSpace(a.message) && a.contacts != []
    ensures ValidateInputs(a) == None
  {
  }

  lemma PressSendIsStart(a: App)
    requires !a.buttons.sendDisabled && ValidateInputs(a) == None
    ensures Apply(a, PressSend(true)) == ProcessCurrent(a.(sending := true, index := 0, buttons := Running), true)
  {
    var b := a.(sending := true, index := 0, buttons := Running);
    assert StartSending(a, true) == ProcessCurrent(b, true);
    SendDispatch(a, true);
  }

  /** An enabled send button calls `start_sending`. */
  lemma SendDispatch(a: App, ok: bool)
    requires !a.buttons.sendDisabled
    ensures Apply(a, PressSend(ok)) == StartSending(a, ok)
  {
  }

  /** A press of the enabled stop button, as a state change. */
  lemma StopStep(a: App)
    requires !a.buttons.stopDisabled
    ensures Apply(a, PressStop).app == a.(sending := false, buttons := Idle)
  {
  }

  /** A scheduled `auto_next` firing during a run that has a next contact:
      the cursor moves on, and in automatic mode the next one is scheduled. */
  lemma TimerStep(a: App)
    requires a.timers > 0 && a.sending && a.index + 1 < |a.contacts|
    ensures Apply(a, TimerFires(true)).app
            == a.(index := a.index + 1, timers := a.timers - 1 + if a.autoMode then 1 else 0)
  {
    var c := a.(timers := a.timers - 1);
    assert Apply(a, TimerFires(true)).app == AutoNext(c, true).app;
    assert AutoNext(c, true).app == NextContact(c, true).app;
    assert NextContact(c, true).app == ProcessCurrent(c.(index := a.index + 1), true).app;
  }

  /** A press of the enabled next button during a run with a contact left
      moves the cursor on, and in automatic mode schedules an `auto_next`. */
  lemma NextStep(a: App)
    requires a.sending && !a.buttons.nextDisabled && a.index + 1 < |a.contacts|
    ensures Apply(a, PressNext(true)).app
            == a.(index := a.index + 1, timers := a.timers + if a.autoMode then 1 else 0)
  {
    var b := a.(index := a.index + 1);
    assert Apply(a, PressNext(true)).app == NextContact(a, true).app;
    assert NextContact(a, true).app == ProcessCurrent(b, true).app;
  }

  /** ... and opens the link of the contact it moved to. */
  lemma NextOpens(a: App)
    requires a.sending && !a.buttons.nextDisabled && a.index + 1 < |a.contacts|
    ensures Apply(a, PressNext(true)).out == Opened(a.message, a.contacts[a.index + 1])
  {
    var b := a.(index := a.index + 1);
    assert Apply(a, PressNext(true)).out == NextContact(a, true).out;
    assert NextContact(a, true).out == ProcessCurrent(b, true).out;
  }

  /** A press of the enabled next button on the last contact completes the
      run. */
  lemma NextCompletes(a: App)
    requires a.sending && !a.buttons.nextDisabled && a.index + 1 >= |a.contacts|
    ensures Apply(a, PressNext(true))
            == Step(a.(index := a.index + 1, sending := false, buttons := Idle), Completed(|a.contacts|))
  {
  }

  /** The state after a stop-and-restart script, from its single steps. */
  lemma RunOfSteps(a: App, a1: App, a2: App, a3: App, a4: App)
    requires Apply(a, PressSend(true)).app == a1
    requires Apply(a1, PressStop).app == a2
    requires Apply(a2, PressSend(true)).app == a3
    requires Apply(a3, TimerFires(true)).app == a4
    ensures Run(a, [PressSend(true), PressStop, PressSend(true), TimerFires(true)]).0 == a4
  {
    RunCons(a3, TimerFires(true), []);
    RunCons(a2, PressSend(true), [TimerFires(true)]);
    RunCons(a1, PressStop, [PressSend(true), TimerFires(true)]);
    RunCons(a, PressSend(true), [PressStop, PressSend(true), TimerFires(true)]);
  }

  /** Stop does not cancel a scheduled `auto_next`: after a stop and a new
      start in automatic mode, the timer left over from the stopped run
      advances the new run, while the new run's own timer is still pending. */
  lemma StaleTimerAdvancesNewRun(a: App)
    requires Inv(a) && !a.sending && a.autoMode && a.timers == 0
    requires !AllSpace(a.message) && |a.contacts| >= 2
    ensures var b := Run(a, [PressSend(true), PressStop, PressSend(true), TimerFires(true)]).0;
            b.sending && b.index == 1 && b.timers == 2
  {
    var a1 := a.(sending := true, index := 0, buttons := Running, timers := 1);
    var a2 := a.(index := 0, timers := 1);
    var a3 := a.(sending := true, index := 0, buttons := Running, timers := 2);
    var a4 := a.(sending := true, index := 1, buttons := Running, timers := 2);
    SendStep(a);
    StopStep(a1);
    SendStep(a2);
    TimerStep(a3);
    RunOfSteps(a, a1, a2, a3, a4);
  }
}

=== FILE: template.dfy ===
/** Message personalisation (`process_current_contact`, line 412):
    `message.replace('{nome}', name)`, Python's left-to-right replacement of
    every non-overlapping occurrence. */
module Template {
  import opened Text

  const Placeholder: string := "{nome}"

  /** The placeholder starts at position `i` of `t`. */
  predicate OccursAt(t: string, i: int) {
    0 <= i && i + |Placeholder| <= |t| && t[i..i + |Placeholder|] == Placeholder
  }

  ghost predicate HasPlaceholder(t: string) {
    exists i :: OccursAt(t, i)
  }

  /** `t.replace('{nome}', name)`: scan from the left; at each occurrence
      emit the name and resume after it, otherwise keep one character. */
  function Substitute(t: string, name: string): string
    decreases |t|
  {
    if |t| < |Placeholder| then t
    else if t[..|Placeholder|] == Placeholder then name + Substitute(t[|Placeholder|..], name)
    else [t[0]] + Substitute(t[1..], name)
  }

  /** `t.split('{nome}')`: the text between the occurrences the left-to-right
      scan finds. */
  function Pieces(t: string): (ps: seq<string>)
    ensures |ps| >= 1
    decreases |t|
  {
    if |t| < |Placeholder| then [t]
    else if t[..|Placeholder|] == Placeholder then [[]] + Pieces(t[|Placeholder|..])
    else
      var rest := Pieces(t[1..]);
      [[t[0]] + rest[0]] + rest[1..]
  }

  lemma JoinExtendHead(c: char, ps: seq<string>, sep: string)
    requires |ps| >= 1
    ensures Join([[c] + ps[0]] + ps[1..], sep) == [c] + Join(ps, sep)
  {
    var qs := [[c] + ps[0]] + ps[1..];
    assert qs[1..] == ps[1..];
  }

  lemma JoinEmptyHead(ps: seq<string>, sep: string)
    requires |ps| >= 1
    ensures Join([[]] + ps, sep) == sep + Join(ps, sep)
  {
    var qs := [[]] + ps;
    assert qs[0] == [] && qs[1..] == ps;
  }

  lemma JoinPrefix(ps: seq<string>, sep: string)
    requires |ps| >= 1
    ensures |ps[0]| <= |Join(ps, sep)| && Join(ps, sep)[..|ps[0]|] == ps[0]
  {
  }

  /** Replacing is splitting at the occurrences and joining with the name:
      `t.replace(p, n) == n.join(t.split(p))`. */
  lemma {:induction false} SubstituteIsJoin(t: string, name: string)
    ensures Substitute(t, name) == Join(Pieces(t), name)
    decreases |t|
  {
    if |t| < |Placeholder| {
    } else if t[..|Placeholder|] == Placeholder {
      var rest := t[|Placeholder|..];
      SubstituteIsJoin(rest, name);
      assert Pieces(t) == [[]] + Pieces(rest);
      assert Substitute(t, name) == name + Substitute(rest, name);
      JoinEmptyHead(Pieces(rest), name);
    } else {
      var rest := Pieces(t[1..]);
      SubstituteIsJoin(t[1..], name);
      assert Pieces(t) == [[t[0]] + rest[0]] + rest[1..];
      assert Substitute(t, name) == [t[0]] + Substitute(t[1..], name);
      JoinExtendHead(t[0], rest, name);
    }
  }

  /** Putting the placeholder back where it was taken out restores the
      template. */
  lemma {:induction false} SubstituteItself(t: string)
    ensures Substitute(t, Placeholder) == t
    decreases |t|
  {
    if |t| < |Placeholder| {
    } else if t[..|Placeholder|] == Placeholder {
      SubstituteItself(t[|Placeholder|..]);
      assert t == t[..|Placeholder|] + t[|Placeholder|..];
    } else {
      SubstituteItself(t[1..]);
      assert t == [t[0]] + t[1..];
    }
  }

  /** The pieces rejoined with the placeholder are the template again. */
  lemma PiecesRejoin(t: string)
    ensures Join(Pieces(t), Placeholder) == t
  {
    SubstituteIsJoin(t, Placeholder);
    SubstituteItself(t);
  }

  /** No piece contains the placeholder: every occurrence the scan passes
      over is one it replaced. */
  lemma {:induction false} PiecesAreFree(t: string)
    ensures forall k :: 0 <= k < |Pieces(t)| ==> !HasPlaceholder(Pieces(t)[k])
    decreases |t|
  {
    var ps := Pieces(t);
    if |t| < |Placeholder| {
      assert forall i :: !OccursAt(t, i);
    } else if t[..|Placeholder|] == Placeholder {
      PiecesAreFree(t[|Placeholder|..]);
      assert forall i :: !OccursAt([], i);
      assert forall k :: 1 <= k < |ps| ==> ps[k] == Pieces(t[|Placeholder|..])[k - 1];
    } else {
      var rest := Pieces(t[1..]);
      PiecesAreFree(t[1..]);
      PiecesRejoin(t[1..]);
      JoinPrefix(rest, Placeholder);
      var first := [t[0]] + rest[0];
      assert first == t[..|first|];
      assert !OccursAt(t, 0);
      forall i
        ensures !OccursAt(first, i)
      {
        OccursAfterHead(t[0], rest[0], i);
        OccursInPrefix(first, t);
      }
      assert forall k :: 1 <= k < |ps| ==> ps[k] == rest[k];
    }
  }

  /** An occurrence past the first character of `[c] + s` is one in `s`. */
  lemma OccursAfterHead(c: char, s: string, i: int)
    ensures OccursAt([c] + s, i) && i >= 1 ==> OccursAt(s, i - 1)
  {
    if OccursAt([c] + s, i) && i >= 1 {
      assert ([c] + s)[i..i + |Placeholder|] == s[i - 1..i - 1 + |Placeholder|];
    }
  }

  /** An occurrence at the start of a prefix of `t` is one at the start of `t`. */
  lemma OccursInPrefix(p: string, t: string)
    ensures |p| <= |t| && p == t[..|p|] && OccursAt(p, 0) ==> OccursAt(t, 0)
  {
    if |p| <= |t| && p == t[..|p|] && OccursAt(p, 0) {
      assert t[..|Placeholder|] == p[..|Placeholder|];
    }
  }

  /** A template without the placeholder is sent as it is. */
  lemma {:induction false} NoPlaceholderUnchanged(t: string, name: string)
    requires !HasPlaceholder(t)
    ensures Substitute(t, name) == t
    decreases |t|
  {
    if |t| >= |Placeholder| {
      assert !OccursAt(t, 0);
      assert forall i :: OccursAt(t[1..], i) ==> OccursAt(t, i + 1);
      NoPlaceholderUnchanged(t[1..], name);
    }
  }

  lemma PersonalisedGreeting()
    ensures Substitute("Oi {nome}!", "Ana") == "Oi Ana!"
  {
    var t := "Oi {nome}!";
    assert t[3..][..|Placeholder|] == Placeholder;
    assert Substitute(t[3..][|Placeholder|..], "Ana") == "!";
  }
}

=== FILE: text.dfy ===
/** The string primitives the sender relies on: Python's `str.strip()`,
    ASCII lower-casing and `', '.join(...)`. Strings are sequences of Unicode
    scalar values, as Python strings are sequences of code points. */
module Text {

  /** Python's `str.isspace()`: the characters CPython treats as white space
      (bidirectional class WS, B or S, or general category Zs). */
  predicate IsSpace(c: char) {
    || ('\t' <= c <= '\r')
    || ('\U{1C}' <= c <= ' ')
    || c == '\U{85}' || c == '\U{A0}' || c == '\U{1680}'
    || ('\U{2000}' <= c <= '\U{200A}')
    || c == '\U{2028}' || c == '\U{2029}' || c == '\U{202F}' || c == '\U{205F}'
    || c == '\U{3000}'
  }

  /** Every character of `s` is white space. Stated by recursion, so that a
      proof unfolds it only as far as it needs. */
  predicate AllSpace(s: string) {
    s == [] || (IsSpace(s[0]) && AllSpace(s[1..]))
  }

  lemma {:induction false} AllSpaceAppend(a: string, b: string)
    ensures AllSpace(a + b) <==> AllSpace(a) && AllSpace(b)
  {
    if a == [] {
      assert a + b == b;
    } else {
      assert (a + b)[0] == a[0];
      assert (a + b)[1..] == a[1..] + b;
      AllSpaceAppend(a[1..], b);
    }
  }

  /** Neither end of `s` is white space (vacuously true of the empty string). */
  predicate Trimmed(s: string) {
    s == [] || (!IsSpace(s[0]) && !IsSpace(s[|s| - 1]))
  }

  function TrimStart(s: string): (r: string)
    ensures |r| <= |s| && r == s[|s| - |r|..]
    ensures r == [] || !IsSpace(r[0])
  {
    if s != [] && IsSpace(s[0]) then TrimStart(s[1..]) else s
  }

  function TrimEnd(s: string): (r: string)
    ensures |r| <= |s| && r == s[..|r|]
    ensures r == [] || !IsSpace(r[|r| - 1])
  {
    if s != [] && IsSpace(s[|s| - 1]) then TrimEnd(s[..|s| - 1]) else s
  }

  /** What `TrimStart` removes is white space, and it removes everything
      from a string that is all white space. */
  lemma {:induction false} TrimStartDropsSpace(s: string)
    ensures AllSpace(s[..|s| - |TrimStart(s)|])
    ensures AllSpace(s) ==> TrimStart(s) == []
  {
    if s != [] && IsSpace(s[0]) {
      TrimStartDropsSpace(s[1..]);
      var n := |s| - |TrimStart(s)|;
      assert s[..n][1..] == s[1..][..n - 1];
    }
  }

  /** What `TrimEnd` removes is white space. */
  lemma {:induction false} TrimEndDropsSpace(s: string)
    ensures AllSpace(s[|TrimEnd(s)|..])
  {
    if s != [] && IsSpace(s[|s| - 1]) {
      var t := s[..|s| - 1];
      var c := s[|s| - 1];
      TrimEndDropsSpace(t);
      assert s[|TrimEnd(s)|..] == t[|TrimEnd(t)|..] + [c];
      AllSpaceAppend(t[|TrimEnd(t)|..], [c]);
    }
  }

  /** Python's `s.strip()`. `StripIsInfix` states what was removed. */
  function Strip(s: string): (r: string)
    ensures |r| <= |s|
    ensures Trimmed(r)
  {
    TrimEnd(TrimStart(s))
  }

  /** Together with `Trimmed(Strip(s))` this pins `s.strip()` down uniquely:
      the result is the infix of `s` left after removing white space only,
      and from both ends. */
  lemma StripIsInfix(s: string) returns (i: nat)
    ensures i + |Strip(s)| <= |s|
    ensures s == s[..i] + Strip(s) + s[i + |Strip(s)|..]
    ensures AllSpace(s[..i]) && AllSpace(s[i + |Strip(s)|..])
  {
    var t := TrimStart(s);
    i := |s| - |t|;
    assert t == s[i..];
    TrimStartDropsSpace(s);
    TrimEndInfix(s, i);
  }

  /** Trimming the end of a suffix `s[i..]` cuts `s` into three parts, the
      last of them white space. */
  lemma TrimEndInfix(s: string, i: nat)
    requires i <= |s|
    ensures var r := TrimEnd(s[i..]);
            && i + |r| <= |s|
            && s == s[..i] + r + s[i + |r|..]
            && AllSpace(s[i + |r|..])
  {
    var t := s[i..];
    var r := TrimEnd(t);
    var j := i + |r|;
    TrimEndDropsSpace(t);
    assert t[|r|..] == s[j..];
    assert s[i..j] == r;
    SplitAt(s, i, j);
  }

  lemma SplitAt(s: string, i: nat, j: nat)
    requires i <= j <= |s|
    ensures s == s[..i] + s[i..j] + s[j..]
  {
    assert s[..j] == s[..i] + s[i..j];
  }

  /** A string that is already trimmed is its own strip. */
  lemma StripTrimmed(s: string)
    requires Trimmed(s)
    ensures Strip(s) == s
  {
  }

  /** Stripping twice is stripping once. */
  lemma StripIdempotent(s: string)
    ensures Strip(Strip(s)) == Strip(s)
  {
    StripTrimmed(Strip(s));
  }

  /** `s.strip()` is empty exactly when `s` is all white space: the test the
      sender uses for a blank message. */
  lemma StripEmptyIffAllSpace(s: string)
    ensures Strip(s) == [] <==> AllSpace(s)
  {
    var i := StripIsInfix(s);
    TrimStartDropsSpace(s);
    if Strip(s) == [] {
      assert s == s[..i] + s[i..];
      AllSpaceAppend(s[..i], s[i..]);
    }
  }

  function AsciiLowerChar(c: char): char {
    if 'A' <= c <= 'Z' then (c as int + 32) as char else c
  }

  /** Lower-casing never turns a character into white space or back. */
  lemma LowerKeepsSpace(c: char)
    ensures IsSpace(AsciiLowerChar(c)) == IsSpace(c)
  {
  }

  /** `str.lower()` restricted to ASCII letters; every other character is kept. */
  function AsciiLower(s: string): (r: string)
    ensures |r| == |s|
    ensures forall k :: 0 <= k < |s| ==> r[k] == AsciiLowerChar(s[k])
  {
    if s == [] then [] else [AsciiLowerChar(s[0])] + AsciiLower(s[1..])
  }

  /** Python's `sep.join(parts)`. */
  function Join(parts: seq<string>, sep: string): string {
    if |parts| == 0 then []
    else if |parts| == 1 then parts[0]
    else parts[0] + sep + Join(parts[1..], sep)
  }
}

=== FILE: utf8.dfy ===
/** UTF-8, the encoding `urllib.parse.quote` applies to a `str` before it
    percent-encodes the bytes (RFC 3629). Characters are Unicode scalar
    values, so every string has an encoding. */
module Utf8 {
  import opened Wrappers

  type Byte = b: int | 0 <= b < 0x100

  predicate IsContinuation(b: Byte) {
    0x80 <= b < 0xC0
  }

  /** The one- to four-byte encoding of a scalar value. */
  function EncodeChar(c: char): (bs: seq<Byte>)
    ensures 1 <= |bs| <= 4
    ensures (|bs| == 1) == (c as int < 0x80)
    ensures |bs| == 1 ==> bs[0] == c as int
    ensures forall k :: 1 <= k < |bs| ==> IsContinuation(bs[k])
  {
    var v := c as int;
    if v < 0x80 then [v]
    else if v < 0x800 then [0xC0 + v / 0x40, 0x80 + v % 0x40]
    else if v < 0x10000 then [0xE0 + v / 0x1000, 0x80 + (v / 0x40) % 0x40, 0x80 + v % 0x40]
    else [0xF0 + v / 0x40000, 0x80 + (v / 0x1000) % 0x40, 0x80 + (v / 0x40) % 0x40, 0x80 + v % 0x40]
  }

  /** `s.encode('utf-8')` */
  function Encode(s: string): seq<Byte> {
    if s == [] then [] else EncodeChar(s[0]) + Encode(s[1..])
  }

  /** Decodes the character at the front of `bs`, rejecting truncated
      sequences, stray continuation bytes, overlong forms, surrogates and
      values beyond U+10FFFF. Returns the character and the bytes it used. */
  function DecodeChar(bs: seq<Byte>): (r: Option<(char, nat)>)
    ensures r.Some? ==> 1 <= r.value.1 <= |bs| && r.value.1 <= 4
  {
    if bs == [] then None
    else
      var b0: int := bs[0];
      if b0 < 0x80 then Some((b0 as char, 1))
      else if 0xC2 <= b0 < 0xE0 then
        if |bs| < 2 || !IsContinuation(bs[1]) then None
        else Some((((b0 - 0xC0) * 0x40 + (bs[1] as int - 0x80)) as char, 2))
      else if 0xE0 <= b0 < 0xF0 then
        if |bs| < 3 || !IsContinuation(bs[1]) || !IsContinuation(bs[2]) then None
        else
          var v := (b0 - 0xE0) * 0x1000 + (bs[1] as int - 0x80) * 0x40 + (bs[2] as int - 0x80);
          if v < 0x800 || (0xD800 <= v < 0xE000) then None else Some((v as char, 3))
      else if 0xF0 <= b0 < 0xF5 then
        if |bs| < 4 || !IsContinuation(bs[1]) || !IsContinuation(bs[2]) || !IsContinuation(bs[3]) then None
        else
          var v := (b0 - 0xF0) * 0x40000 + (bs[1] as int - 0x80) * 0x1000 + (bs[2] as int - 0x80) * 0x40 + (bs[3] as int - 0x80);
          if v < 0x10000 || v >= 0x110000 then None else Some((v as char, 4))
      else None
  }

  /** `bs.decode('utf-8')`, or `None` where that raises. */
  function Decode(bs: seq<Byte>): Option<string>
    decreases |bs|
  {
    if bs == [] then Some([])
    else match DecodeChar(bs)
      case None => None
      case Some((c, n)) =>
        match Decode(bs[n..])
        case None => None
        case Some(rest) => Some([c] + rest)
  }

  lemma Split12(v: nat)
    ensures v / 0x1000 == (v / 0x40) / 0x40
    ensures v == (v / 0x1000) * 0x1000 + ((v / 0x40) % 0x40) * 0x40 + v % 0x40
  {
  }

  lemma Split18(v: nat)
    ensures v / 0x40000 == (v / 0x1000) / 0x40
    ensures v == (v / 0x40000) * 0x40000 + ((v / 0x1000) % 0x40) * 0x1000 + ((v / 0x40) % 0x40) * 0x40 + v % 0x40
  {
    Split12(v);
  }

  /** Decoding the encoding of a character gives the character back and
      consumes exactly its bytes, whatever follows. */
  lemma DecodeEncodeChar(c: char, rest: seq<Byte>)
    ensures DecodeChar(EncodeChar(c) + rest) == Some((c, |EncodeChar(c)|))
  {
    var v := c as int;
    var bs := EncodeChar(c) + rest;
    if v < 0x80 {
    } else if v < 0x800 {
      assert bs[0] == 0xC0 + v / 0x40 && bs[1] == 0x80 + v % 0x40;
    } else if v < 0x10000 {
      Split12(v);
      assert bs[0] == 0xE0 + v / 0x1000 && bs[1] == 0x80 + (v / 0x40) % 0x40 && bs[2] == 0x80 + v % 0x40;
    } else {
      Split18(v);
      Split12(v);
      assert bs[0] == 0xF0 + v / 0x40000;
      assert bs[1] == 0x80 + (v / 0x1000) % 0x40 && bs[2] == 0x80 + (v / 0x40) % 0x40 && bs[3] == 0x80 + v % 0x40;
    }
  }

  /** Decoding undoes encoding. */
  lemma {:induction false} DecodeEncode(s: string)
    ensures Decode(Encode(s)) == Some(s)
    decreases |s|
  {
    if s != [] {
      var e := EncodeChar(s[0]);
      var tail := Encode(s[1..]);
      assert Encode(s) == e + tail;
      DecodeEncodeChar(s[0], tail);
      DecodeEncode(s[1..]);
      assert (e + tail)[|e|..] == tail;
      DecodeStep(e + tail);
      assert s == [s[0]] + s[1..];
    }
  }

  /** One step of `Decode`: the first character, then the rest. */
  lemma DecodeStep(bs: seq<Byte>)
    requires DecodeChar(bs).Some?
    ensures var (c, n) := DecodeChar(bs).value;
            Decode(bs) == match Decode(bs[n..]) case None => None case Some(rest) => Some([c] + rest)
  {
  }

  lemma Digits2(x: int, y: int)
    requires 0 <= y < 0x40
    ensures (x * 0x40 + y) / 0x40 == x && (x * 0x40 + y) % 0x40 == y
  {
  }

  lemma Digits3(x: int, y: int, z: int)
    requires 0 <= x && 0 <= y < 0x40 && 0 <= z < 0x40
    ensures var v := x * 0x1000 + y * 0x40 + z;
            v / 0x1000 == x && (v / 0x40) % 0x40 == y && v % 0x40 == z
  {
    var v := x * 0x1000 + y * 0x40 + z;
    assert v == (x * 0x40 + y) * 0x40 + z;
    Digits2(x * 0x40 + y, z);
    Digits2(x, y);
    Split12(v);
  }

  lemma Digits4(w: int, x: int, y: int, z: int)
    requires 0 <= w && 0 <= x < 0x40 && 0 <= y < 0x40 && 0 <= z < 0x40
    ensures var v := w * 0x40000 + x * 0x1000 + y * 0x40 + z;
            v / 0x40000 == w && (v / 0x1000) % 0x40 == x && (v / 0x40) % 0x40 == y && v % 0x40 == z
  {
    var v := w * 0x40000 + x * 0x1000 + y * 0x40 + z;
    assert v == (w * 0x40 + x) * 0x1000 + y * 0x40 + z;
    Digits3(w * 0x40 + x, y, z);
    Digits2(w, x);
    Split18(v);
  }

  /** A character the decoder accepts is re-encoded to exactly the bytes it
      was read from: the decoder accepts only shortest forms. */
  lemma EncodeDecodeChar(bs: seq<Byte>)
    requires DecodeChar(bs).Some?
    ensures EncodeChar(DecodeChar(bs).value.0) == bs[..DecodeChar(bs).value.1]
  {
    var b0: int := bs[0];
    if b0 < 0x80 {
    } else if b0 < 0xE0 {
      ReencodeTwo(bs);
    } else if b0 < 0xF0 {
      ReencodeThree(bs);
    } else {
      ReencodeFour(bs);
    }
  }

  lemma ReencodeTwo(bs: seq<Byte>)
    requires DecodeChar(bs).Some? && 0x80 <= bs[0] < 0xE0
    ensures EncodeChar(DecodeChar(bs).value.0) == bs[..2]
  {
    var v := (bs[0] as int - 0xC0) * 0x40 + (bs[1] as int - 0x80);
    assert DecodeChar(bs) == Some((v as char, 2));
    Digits2(bs[0] as int - 0xC0, bs[1] as int - 0x80);
    assert EncodeChar(v as char) == [bs[0], bs[1]];
  }

  lemma ReencodeThree(bs: seq<Byte>)
    requires DecodeChar(bs).Some? && 0xE0 <= bs[0] < 0xF0
    ensures EncodeChar(DecodeChar(bs).value.0) == bs[..3]
  {
    var v := (bs[0] as int - 0xE0) * 0x1000 + (bs[1] as int - 0x80) * 0x40 + (bs[2] as int - 0x80);
    assert DecodeChar(bs) == Some((v as char, 3));
    Digits3(bs[0] as int - 0xE0, bs[1] as int - 0x80, bs[2] as int - 0x80);
    assert EncodeChar(v as char) == [bs[0], bs[1], bs[2]];
  }

  lemma ReencodeFour(bs: seq<Byte>)
    requires DecodeChar(bs).Some? && 0xF0 <= bs[0]
    ensures EncodeChar(DecodeChar(bs).value.0) == bs[..4]
  {
    var v := (bs[0] as int - 0xF0) * 0x40000 + (bs[1] as int - 0x80) * 0x1000 + (bs[2] as int - 0x80) * 0x40 + (bs[3] as int - 0x80);
    assert DecodeChar(bs) == Some((v as char, 4));
    Digits4(bs[0] as int - 0xF0, bs[1] as int - 0x80, bs[2] as int - 0x80, bs[3] as int - 0x80);
    assert EncodeChar(v as char) == [bs[0], bs[1], bs[2], bs[3]];
  }

  /** Encoding undoes decoding: a byte string the decoder accepts is the
      encoding of what it decodes to. With `DecodeEncode`, `Encode` is a
      bijection between strings and valid UTF-8. */
  lemma {:induction false} EncodeDecode(bs: seq<Byte>)
    requires Decode(bs).Some?
    ensures Encode(Decode(bs).value) == bs
    decreases |bs|
  {
    if bs != [] {
      var first := DecodeChar(bs).value;
      var n := first.1;
      DecodeStep(bs);
      EncodeDecodeChar(bs);
      EncodeDecode(bs[n..]);
      EncodeJoin(bs, first.0, n, Decode(bs[n..]).value);
    }
  }

  /** The bytes of a character followed by the bytes of a string are the
      bytes of the two together. */
  lemma EncodeJoin(bs: seq<Byte>, c: char, n: nat, rest: string)
    requires n <= |bs| && EncodeChar(c) == bs[..n] && Encode(rest) == bs[n..]
    ensures Encode([c] + rest) == bs
  {
    assert ([c] + rest)[0] == c && ([c] + rest)[1..] == rest;
    assert bs == bs[..n] + bs[n..];
  }
}

=== FILE: wrappers.dfy ===
/** Failure-carrying datatypes used throughout the model: an absent cell or a
    failed parse is an `Option`, an operation that can raise is a `Result`. */
module Wrappers {

  datatype Option<+T> = None | Some(value: T)

  datatype Result<+T, +E> = Ok(value: T) | Err(error: E)
}
